=== FILE: README.md ===
# Structured register information: extraction model

This project models the extraction core of `si_parsing.py`. That module reads
the "structured information" export of the German commercial register, an
XJustiz message `tns:nachricht.reg.0400003` parsed into nested dictionaries by
`xmltodict`. From one parsed document it builds three things:

- a **company** record, with an identifier `{court}_{code}{number}{addition}`;
- the **participants**, each a natural person or an organisation;
- the **register entries**.

The batch loop around it picks the latest export of each company by the
timestamp in the file name. It fills a missing company name from the first
organisation that holds the registered-entity role "287".

The model is written in Dafny. These are the modules:

- `Wrappers`: `Option` and `Result`. `Crash` stands for any raised Python exception.
- `Tree`: the parsed document (`Node`) and the Python operations the extractor uses on it:
  - `dict.get` with a default;
  - truthiness;
  - `in`;
  - iteration;
  - pydantic's `Optional[str]` and `str` validation;
  - f-string rendering of `None`.
- `Keys`: the element names.
- `Records`: `Company`, `Participant` (person or organisation) and `RegisterEntry`.
- `HrbPattern`: `re.search(r"(HRB)\s+(\d+)\s+([A-Z]+)", s)`, given a declarative meaning (leftmost match, greedy runs).
- `LexOrder`: Python string order, and its agreement with numeric order on zero-padded digit fields.
- `LatestFile`: choosing the latest export by its `YYYY-MM-DDTHH-MM-SS` token.
- `CompanyInfo`: `extract_company_info`, including the free-text register fallback and the identifier.
- `Positions`: order-preserving selection. It describes every loop that appends only for some items.
- `Parties`: `extract_parties`.
- `Entries`: `extract_entries`.
- `Assembly`: one document of the batch loop, the designation backfill, and the loop over documents.

Every operation returns a `Result`. A document of the wrong shape therefore leads to `Crash`, exactly where the Python code raises:

- `.get` on a string, list or `None`;
- `re.search` on `None`;
- iterating `None`;
- indexing an empty role list;
- pydantic rejecting a dictionary as a string.

The model has no `try`/`except`, and neither does the source.

Four behaviours of the code are easy to overlook, and the model keeps them:

- **Extraction is not total over truncated trees.** A message with no running number, no free-text file number and no sender file reference raises when `re.search` receives `None` (`CompanyInfo.NoReferenceCrashes`, `CompanyInfo.EmptyMessageCrashes`).
- **A failing document ends the whole run.** The loop over companies has no exception handling, so one raising extraction stops the run; `Assembly.Batch` fails as a whole.
- **A repeated company identifier ends the run.** The identifier is the primary key of the `companies` table (si_parsing.py:474), and nothing catches the `sqlite3.IntegrityError` that a second insert under it raises.
- **An empty role list raises.** An empty `tns:rolle` list causes an `IndexError`; it is not treated as an absent role.

## Model

| member | source | states |
|---|---|---|
| Tree.Get | si_parsing.py:115-119 | `dict.get` succeeds exactly on dictionaries, gives the default for a missing key and the stored value otherwise |
| Tree.NonDictYieldsCrash | si_parsing.py:115-118 | a chain of `.get(key, {})` that reaches a value which is not a dictionary raises, whatever the path looks like below that point |
| Tree.DigAppend | si_parsing.py:115-118 | following a chain in two stages is the same as following the joined path, and a failure in the first stage is final |
| Tree.DigEmpty | si_parsing.py:115-118 | below a `{}` default every further `.get(key, {})` gives `{}` again, without an error |
| Tree.LeafMeaning | si_parsing.py:115-119 | a chain ending in a plain `.get(key)` succeeds exactly when the value reached before the last key is a dictionary, and gives None when that dictionary lacks the last key; validated as `Optional[str]`, the read succeeds exactly when that value is None or a string, is None exactly when the value is None, and carries the string otherwise |
| Tree.EmptyLeaf | si_parsing.py:115-119 | every leaf read from `{}` gives None without an error, whatever its path |
| Tree.MissingKeyYieldsNull | si_parsing.py:115-119 | a key missing at any depth of a chained `.get(..., {})` path makes the final value None rather than an error |
| Tree.GetUnlessNone | si_parsing.py:246 | the `x.get(k) if x is not None else None` guard: None passes through, dictionaries are read, anything else raises |
| Tree.GuardedLeaf | si_parsing.py:244-254 | the same guard at the end of a `.get(..., {})` chain: a None parent gives None, a dictionary parent gives the ordinary leaf on the extended path, and anything else raises |
| Tree.Contains | si_parsing.py:240 | `key in x` is a key test on dictionaries, membership on lists, substring on strings, and raises on None |
| Tree.Iter | si_parsing.py:226 | iterating a list gives its items, a dictionary its keys (as strings), a string its characters, and None raises |
| Tree.AsOptStr | si_parsing.py:35-54 | an `Optional[str]` field accepts exactly None and strings |
| Tree.AsStr | si_parsing.py:53 | a `str` field accepts exactly strings |
| Tree.Render | si_parsing.py:188 | an f-string renders None as "None" and a string as itself |
| Tree.Truthy | si_parsing.py:168-171 | the `not x` test: None, the empty string, `{}` and `[]` are false and every other value is true |
| HrbPattern.SearchHrb | si_parsing.py:178-185 | `re.search` finds nothing exactly when no position starts a match; otherwise it returns a match at the leftmost such position, with greedy digit and letter runs |
| HrbPattern.MatchAtComplete | si_parsing.py:178 | any match starting at a position is found by the anchored attempt, with the same number and an end no shorter |
| HrbPattern.MatchAtSound | si_parsing.py:178 | what the anchored attempt returns is a genuine match of the pattern |
| HrbPattern.ExampleFullMatch | si_parsing.py:178-185 | "HRB 12345 B" matches with number "12345" and addition "B" |
| HrbPattern.ExampleOtherRegisterType | si_parsing.py:178-185 | "HRA 1 X" does not match |
| HrbPattern.ExampleNoSuffix | si_parsing.py:178-185 | "HRB 12345" without a suffix does not match |
| CompanyInfo.ReadAddress | si_parsing.py:137-151 | a list of addresses contributes its first element, an empty list acts as `{}`; each address field is the value on its path, and the read fails exactly when some path raises |
| CompanyInfo.ReadAddressFields | si_parsing.py:140-151 | the six address fields of one address dictionary: the read succeeds exactly when every field path can be read, and each field is the value on its path |
| CompanyInfo.CompanyNumberLayout | si_parsing.py:187-190 | the identifier starts with the rendered court and an underscore, followed by the rendered register code and the number; its length counts the addition exactly when the addition is truthy |
| CompanyInfo.FallbackText | si_parsing.py:168-176 | the free-text file number when truthy, otherwise the sender's file reference from the header |
| CompanyInfo.Validate | si_parsing.py:206-208 | code and addition must be None or strings and the number a string; the values are kept |
| CompanyInfo.ResolveRegister | si_parsing.py:160-185 | a truthy running number is kept with code and addition; otherwise a non-string fallback raises, a match overwrites code, number and addition with "HRB" and the two groups, and no match makes the free text the number |
| CompanyInfo.ExtractCompany | si_parsing.py:113-214 | succeeds exactly when every plain field, the address and the register reference can be read; each plain field is the value on its path from the root, the address and register reference are those read from the document, and the identifier and OpenCorporates link are built from the stored fields |
| CompanyInfo.MissingKeyGivesNone | si_parsing.py:113-153 | a key missing at any depth of a field's path makes that field's read give None without an error, so it adds no failure, and a successful extraction has the field None |
| CompanyInfo.OnlyCourtAndReference | si_parsing.py:113-214 | a message with a court code and a readable register reference but no register data is extracted, every other field None and the identifier built from court and reference |
| CompanyInfo.ExampleMinimalMessage | si_parsing.py:113-214 | court "D2601" with register code "HRB" and running number "12345" is extracted as "D2601_HRB12345" with no addition and no designation |
| CompanyInfo.MissingAddressKeyGivesNone | si_parsing.py:137-151 | a key missing below a single address makes that field's read give None without an error, so it adds no failure, and a successful address read has the field None |
| CompanyInfo.NoReferenceCrashes | si_parsing.py:168-181 | with no running number, free text or sender reference, `re.search(pattern, None)` raises |
| CompanyInfo.EmptyMessageCrashes | si_parsing.py:115-181 | a document with an empty or missing message does not yield a company |
| CompanyInfo.ExampleFreeTextMatch | si_parsing.py:168-185 | free text "HRB 12345 B" gives code "HRB", number "12345", addition "B" |
| CompanyInfo.ExampleFreeTextNoMatch | si_parsing.py:168-185 | free text "HRA 1 X" becomes the number, code and addition stay None |
| CompanyInfo.ExampleIdentifiers | si_parsing.py:187-190 | identifiers with and without an addition, an empty addition omitted, a missing code rendered "None" |
| Positions.Selected | si_parsing.py:225-297 | the positions of the flagged items, increasing, each flagged, none missed |
| Positions.Kept | si_parsing.py:225-297 | the kept values, one per selected position, in order |
| Positions.Traverse | si_parsing.py:226 | a loop without exception handling succeeds exactly when every step does, giving each step's value |
| Parties.RoleOf | si_parsing.py:227-232 | a role list gives its first element and raises when empty; a single role is taken as is |
| Parties.RoleNameCode | si_parsing.py:234-237 | the role name code is read only when `tns:rollenbezeichnung` is not None; a None or missing element gives None, and a non-dictionary raises |
| Parties.ReadPerson | si_parsing.py:241-269 | succeeds exactly when every field can be read; names and city are read from their paths; birth date, gender and state code are None when their parent element is None and the leaf below it otherwise; a None address raises |
| Parties.ReadOrganization | si_parsing.py:271-295 | succeeds exactly when every field can be read; name, legal form, city and state code are read from their paths |
| Parties.ExtractParticipant | si_parsing.py:227-295 | succeeds exactly when the first role, its number and name code and the selector can be read and the branch taken reads its record; a person exactly when the selector contains the natural-person key, an organisation exactly when it contains only the organisation key, nothing when it contains neither; the record is the one read from that branch with the first role's number and name code; role failures raise |
| Parties.EmptyRoleNameGivesNone | si_parsing.py:234-237 | a present-but-empty `tns:rollenbezeichnung` reads as a None role name code without an error, so it adds no failure, and a record built from it has a None role name code |
| Parties.ExampleRegisteredEntity | si_parsing.py:227-295 | a participant with role number "1", role name code "287" and an organisation given as `{}` is extracted as that organisation, every other field None |
| Parties.EmptyOrganization | si_parsing.py:271-295 | an organisation dictionary holding none of the keys read (`{}`, or an element carrying only attributes) gives an organisation whose name, legal form, city and state code are None |
| Parties.NullOrganizationCrashes | si_parsing.py:270-272 | an empty `tns:organisation` element parses to None, and the first `.get` on it makes the participant raise |
| Parties.CollectParticipants | si_parsing.py:225-297 | succeeds exactly when no participant raises; the records are those of the producing participants, in document order, stamped with identifier and path |
| Parties.ExtractParties | si_parsing.py:218-297 | whenever `tns:beteiligung` (default `[]`) can be reached and iterated, the result is exactly the loop over its items; the participants are stamped with the given identifier and path |
| Parties.EmptyRoleListCrashes | si_parsing.py:229-230 | an empty role list raises |
| Parties.PersonTestedFirst | si_parsing.py:240-270 | a selector with both keys yields a person |
| Parties.NeitherKindDropped | si_parsing.py:240-270 | once the role has been read, a selector with neither key yields no record and no error |
| Parties.MissingParticipationGivesNone | si_parsing.py:220-226 | a missing `tns:beteiligung` yields no participants |
| Parties.SingleParticipantCrashes | si_parsing.py:223-227 | a single participant is a dictionary whose keys are iterated, and `.get` on a key raises |
| Entries.EntryOf | si_parsing.py:313-329 | succeeds exactly when the five field paths can be read; an entry's fields are the values on those paths, stamped; a None entry type raises |
| Entries.EmptyEntryFields | si_parsing.py:313-329 | an entry dictionary holding none of the keys read (`{}`, or an element carrying only attributes) gives an entry whose five fields are None |
| Entries.EntryStep | si_parsing.py:311-312 | items that are not dictionaries are skipped |
| Entries.NullEntrySkipped | si_parsing.py:310-312 | an empty `tns:eintragungstext` element parses to None, is not a dictionary, and is skipped: a list of such items yields no entries and no error |
| Entries.CollectEntries | si_parsing.py:310-330 | succeeds exactly when no dictionary item raises; one entry per dictionary item, in order |
| Entries.ExtractEntries | si_parsing.py:303-330 | whenever `tns:eintragungstext` (default `[]`) can be reached and iterated, the result is exactly the loop over its items; the entries are stamped with the given identifier and path |
| Entries.OneEntryCollected | si_parsing.py:310-330 | a list holding one entry dictionary yields exactly that dictionary's entry |
| Entries.ExampleOneEmptyEntry | si_parsing.py:303-330 | a `tns:eintragungstext` list holding one `{}` yields exactly one entry, every field None, stamped |
| Entries.MissingTranscriptsGiveNoEntries | si_parsing.py:305-308 | a missing register data, extract or entry element yields no entries and no error |
| Entries.SingleTranscriptGivesNoEntries | si_parsing.py:308-312 | a single entry is a dictionary whose keys are iterated and skipped, so no entries |
| LexOrder.LexIrreflexive | si_parsing.py:557-560 | no string sorts before itself |
| LexOrder.LexAsymmetric | si_parsing.py:557-560 | two strings never sort before each other |
| LexOrder.LexPrefix | si_parsing.py:557-560 | a proper prefix sorts before the longer string |
| LexOrder.LexDigits | si_parsing.py:557-560 | on digit strings of one length, string order is numeric order |
| LexOrder.LexTotal | si_parsing.py:557-560 | string order is total |
| LexOrder.LexTransitive | si_parsing.py:557-560 | string order is transitive |
| LatestFile.TimestampToken | si_parsing.py:558 | the leftmost `\d{4}-\d{2}-\d{2}T\d{2}-\d{2}-\d{2}` token, or none when no position starts one |
| LatestFile.SortKeys | si_parsing.py:557-560 | every candidate's key is computed, and a candidate without a token raises |
| LatestFile.TokenOrderIsChronological | si_parsing.py:557-560 | comparing tokens as strings is comparing the instants they name |
| LatestFile.LatestIndex | si_parsing.py:557-563 | the head of the stable reverse sort: a greatest key, the first of equal greatest keys |
| LatestFile.SelectLatest | si_parsing.py:549-563 | no candidates skips the company; a tokenless candidate raises; otherwise the chosen file is chronologically latest and every earlier candidate is strictly older |
| LatestFile.ExampleLaterWins | si_parsing.py:549-563 | of exports stamped 2024-01-01T00-00-00 and 2024-03-11T13-59-19 the second is chosen |
| Assembly.FirstHolder | si_parsing.py:584-589 | the first organisation with role code "287", or none when there is none |
| Assembly.Backfill | si_parsing.py:583-589 | only the designation changes; a present designation is kept; otherwise the first "287" organisation's name is taken, and nothing changes without one |
| Assembly.BackfillIdempotent | si_parsing.py:583-589 | backfilling twice equals backfilling once |
| Assembly.PersonsIgnored | si_parsing.py:585 | inserting a person anywhere in the participant list does not change the backfill |
| Assembly.AssembleRecords | si_parsing.py:578-589 | succeeds exactly when participant and entry extraction do, with exactly their results; the company is the backfilled one; participants and entries carry its identifier and the URL |
| Assembly.ProcessDocument | si_parsing.py:576-589 | a failing company extraction fails the document; otherwise the records are assembled for the extracted company; the result's identifier and link agree with its fields, its path is the URL, and its participants and entries carry that identifier |
| Assembly.LoopStepAsWritten | si_parsing.py:576-589 | a document without the root element reuses the previous iteration's records, and fails on the first iteration |
| Assembly.MissingRootRepeatsPrevious | si_parsing.py:576-596 | after a processed document (its company already backfilled), a root-less document emits the same records again, company identifier included |
| Assembly.LoopStep | si_parsing.py:576-582 | corrected: a document without the root element yields no records |
| Assembly.LoopStepAgrees | si_parsing.py:576-589 | on documents with the root element the corrected and as-written steps agree |
| Assembly.Batch | si_parsing.py:547-589 | one result per document with the root element, in order, each that document's extraction; the extraction part of the run fails exactly when one of those extractions does (a company identifier repeated across two documents also ends the real run, at the insert, which is left out) |

## Left out

- The download of the XJustiz code lists and the code tables (si_parsing.py:368-453): network I/O and SQL DDL.
- Persisting the records (si_parsing.py:591-625): SQL inserts. A second insert under the primary key `company_number` (si_parsing.py:474) raises an uncaught `sqlite3.IntegrityError` and ends the run before the commit at si_parsing.py:625; the model states only that the identifier repeats (`Assembly.MissingRootRepeatsPrevious`).
- Enumerating directories with `glob`, reading files, `xmltodict.parse` and building the URL with `quote` (si_parsing.py:545-574) are file-system and library calls. `LatestFile.SelectLatest` takes the two file lists, and `Assembly.ProcessDocument` takes the parsed tree and the URL as parameters.
- Logging and the diagnostic `print`: output only.
- The REST layer (main.py, hr_api/) is not part of this model.
- `HrbPattern.SearchHrb`: `\s` and `\d` are modelled as their ASCII classes. Python's `re` on `str` also accepts Unicode whitespace and digits.
- `LatestFile.TimestampToken`: `\d` is modelled as ASCII `0-9`. Python's `re` on `str` also accepts every other Unicode decimal digit. `LatestFile.TokenOrderIsChronological` relies on the ASCII reading, because string order and numeric order agree only for the ASCII digits.
- `Tree.Node` has no numbers or booleans, because `xmltodict` produces only strings, dictionaries, lists and None. Element attributes are ordinary keys.
- `CompanyInfo.ExtractCompany` reads each field along its full path from the root. The source walks there through shared intermediate dictionaries. Both yield the same values and raise on the same documents, because a `.get` on a non-dictionary raises either way.
- `Assembly.Batch` models the corrected loop over documents that are already parsed. File selection is `LatestFile.SelectLatest`, and parsing is left out as above.

## Findings

| source | as written | input that shows it | evidently intended | confidence | as-written member | corrected member |
|---|---|---|---|---|---|---|
| si_parsing.py:576-582 | the `else` branch only prints and falls through, so the backfill and the inserts use `company`, `parties` and `entries` from the previous iteration | a company whose latest export lacks `tns:nachricht.reg.0400003`: a NameError if it comes first; otherwise the previous company's row is inserted again under the primary key `company_number` (si_parsing.py:474), the insert at si_parsing.py:591-596 raises an uncaught `sqlite3.IntegrityError`, and the run ends before the commit at si_parsing.py:625 | skip the company and emit no records | high; not executed | Assembly.LoopStepAsWritten, Assembly.MissingRootRepeatsPrevious | Assembly.LoopStep, Assembly.LoopStepAgrees, Assembly.Batch |

=== FILE: assembly.dfy ===
/** One document of the batch loop: the three extractions, then the
    designation backfill from the registered entity among the participants. */
module Assembly {
  import opened Wrappers
  import opened Tree
  import opened Keys
  import opened Records
  import opened CompanyInfo
  import opened Parties
  import opened Entries
  import opened Positions

  /** Role code of the registered entity ("Rechtsträger(in)") in the XJustiz
      role code list. */
  const RegisteredEntityRole: string := "287"

  predicate IsHolder(p: Participant) {
    p.Organization? && p.roleNameCode == Some(RegisteredEntityRole)
  }

  /** Position of the first organisation holding the registered-entity role. */
  function FirstHolder(parties: seq<Participant>): (r: Option<nat>)
    ensures r.None? <==> forall i :: 0 <= i < |parties| ==> !IsHolder(parties[i])
    ensures r.Some? ==> r.value < |parties| && IsHolder(parties[r.value])
    ensures r.Some? ==> forall j :: 0 <= j < r.value ==> !IsHolder(parties[j])
  {
    if |parties| == 0 then None
    else if IsHolder(parties[0]) then Some(0)
    else
      match FirstHolder(parties[1..])
      case None => None
      case Some(i) => Some(i + 1)
  }

  /** A company without a designation takes the name of the first
      organisation holding the registered-entity role (which may itself be
      None); persons are never consulted, and nothing else changes. */
  function Backfill(c: Company, parties: seq<Participant>): (r: Company)
    ensures r.(currentDesignation := c.currentDesignation) == c
    ensures c.currentDesignation.Some? ==> r == c
    ensures (forall i :: 0 <= i < |parties| ==> !IsHolder(parties[i])) ==> r == c
    ensures c.currentDesignation.None? ==>
              forall i :: 0 <= i < |parties| && IsHolder(parties[i]) && (forall j :: 0 <= j < i ==> !IsHolder(parties[j]))
                ==> r.currentDesignation == parties[i].name
  {
    if c.currentDesignation.None? then
      match FirstHolder(parties)
      case Some(i) => c.(currentDesignation := parties[i].name)
      case None => c
    else
      c
  }

  /** Running the backfill twice changes nothing more. */
  lemma BackfillIdempotent(c: Company, parties: seq<Participant>)
    ensures Backfill(Backfill(c, parties), parties) == Backfill(c, parties)
  {
  }

  /** A person anywhere in the list does not influence the backfill. */
  lemma {:induction false} PersonsIgnored(c: Company, front: seq<Participant>, person: Participant, back: seq<Participant>)
    requires person.Person?
    ensures Backfill(c, front + [person] + back) == Backfill(c, front + back)
  {
    HolderSkipsPerson(front, person, back);
  }

  lemma HolderSkipsPerson(front: seq<Participant>, person: Participant, back: seq<Participant>)
    requires person.Person?
    ensures FirstHolder(front + [person] + back).None? <==> FirstHolder(front + back).None?
    ensures FirstHolder(front + back).Some? ==>
              (front + [person] + back)[FirstHolder(front + [person] + back).value]
              == (front + back)[FirstHolder(front + back).value]
  {
    var withPerson := front + [person] + back;
    var withoutPerson := front + back;
    assert forall i :: 0 <= i < |front| ==> withPerson[i] == withoutPerson[i];
    assert forall i :: |front| <= i < |withoutPerson| ==> withPerson[i + 1] == withoutPerson[i];
    if FirstHolder(withoutPerson).Some? {
      var k := FirstHolder(withoutPerson).value;
      var m := if k < |front| then k else k + 1;
      assert IsHolder(withPerson[m]);
      assert forall j :: 0 <= j < m ==> !IsHolder(withPerson[j]) by {
        forall j | 0 <= j < m
          ensures !IsHolder(withPerson[j])
        {
          if j < |front| {
            assert withPerson[j] == withoutPerson[j];
          } else if j > |front| {
            assert withPerson[j] == withoutPerson[j - 1];
          }
        }
      }
      assert FirstHolder(withPerson).value == m;
    } else {
      forall i | 0 <= i < |withPerson|
        ensures !IsHolder(withPerson[i])
      {
        if i < |front| {
          assert withPerson[i] == withoutPerson[i];
        } else if i > |front| {
          assert withPerson[i] == withoutPerson[i - 1];
        }
      }
    }
  }

  // ---------------------------------------------------------------------
  // One document

  datatype Extraction = Extraction(company: Company, parties: seq<Participant>, entries: seq<RegisterEntry>)

  /** Participants and entries are stamped with the identifier of the
      company extracted from the same document and with the download URL. */
  predicate Stamped(e: Extraction, url: string) {
    && (forall k :: 0 <= k < |e.parties| ==>
          e.parties[k].companyNumber == e.company.companyNumber && e.parties[k].filePath == url)
    && (forall k :: 0 <= k < |e.entries| ==>
          e.entries[k].companyNumber == e.company.companyNumber && e.entries[k].filePath == url)
  }

  /** Everything after the company record: its participants and entries,
      then the designation backfill. */
  function AssembleRecords(doc: Node, company: Company, url: string): (r: Result<Extraction>)
    ensures r.Ok? <==> ExtractParties(doc, company.companyNumber, url).Ok? && ExtractEntries(doc, company.companyNumber, url).Ok?
    ensures r.Ok? ==> && r.value.parties == ExtractParties(doc, company.companyNumber, url).value
                      && r.value.entries == ExtractEntries(doc, company.companyNumber, url).value
    ensures r.Ok? ==> r.value.company == Backfill(company, r.value.parties)
    ensures r.Ok? ==> Stamped(r.value, url)
  {
    var parties :- ExtractParties(doc, company.companyNumber, url);
    var entries :- ExtractEntries(doc, company.companyNumber, url);
    Ok(Extraction(Backfill(company, parties), parties, entries))
  }

  /** A parsed document whose root is the register message, with the
      download URL it is stored under. */
  function ProcessDocument(doc: Node, url: string): (r: Result<Extraction>)
    requires HasKey(doc, Root)
    ensures ExtractCompany(doc, url).Crash? ==> r == Crash
    ensures ExtractCompany(doc, url).Ok? ==> r == AssembleRecords(doc, ExtractCompany(doc, url).value, url)
    ensures r.Ok? ==> IdentifierConsistent(r.value.company) && r.value.company.filePath == url && Stamped(r.value, url)
  {
    var company :- ExtractCompany(doc, url);
    AssembleRecords(doc, company, url)
  }

  // ---------------------------------------------------------------------
  // A document without the register message

  /** The loop body as written: for a document without the root element it
      only prints a diagnostic and falls through, so the backfill and the
      inserts see the records left behind by the previous iteration, and on
      the first iteration those names are unbound (a NameError). */
  function LoopStepAsWritten(doc: Node, url: string, previous: Option<Extraction>): (r: Result<Extraction>)
    ensures HasKey(doc, Root) ==> r == ProcessDocument(doc, url)
    ensures !HasKey(doc, Root) ==> (r.Ok? <==> previous.Some?)
    ensures !HasKey(doc, Root) && r.Ok? ==>
              && r.value.parties == previous.value.parties && r.value.entries == previous.value.entries
              && r.value.company.companyNumber == previous.value.company.companyNumber
  {
    if HasKey(doc, Root) then ProcessDocument(doc, url)
    else
      match previous
      case None => Crash
      case Some(e) => Ok(Extraction(Backfill(e.company, e.parties), e.parties, e.entries))
  }

  /** After a document that was processed, a document without the root
      element makes the loop emit the very same records again, including the
      company row whose identifier is the table's primary key. The processed
      records `e` are those of `ProcessDocument`: their company is an
      extracted company after the backfill. */
  lemma MissingRootRepeatsPrevious(doc: Node, url: string, e: Extraction, extracted: Company)
    requires !HasKey(doc, Root)
    requires e.company == Backfill(extracted, e.parties)
    ensures LoopStepAsWritten(doc, url, Some(e)) == Ok(e)
  {
    BackfillIdempotent(extracted, e.parties);
  }

  /** The loop body as evidently intended: a document without the root
      element is skipped and yields no records, whatever came before. */
  function LoopStep(doc: Node, url: string): (r: Result<Option<Extraction>>)
    ensures !HasKey(doc, Root) ==> r == Ok(None)
    ensures HasKey(doc, Root) ==> (r.Ok? <==> ProcessDocument(doc, url).Ok?)
    ensures HasKey(doc, Root) && r.Ok? ==> r.value == Some(ProcessDocument(doc, url).value)
  {
    if HasKey(doc, Root) then
      var e :- ProcessDocument(doc, url);
      Ok(Some(e))
    else
      Ok(None)
  }

  /** On documents with the root element the two loop bodies agree, whatever
      the previous iteration left behind. */
  lemma LoopStepAgrees(doc: Node, url: string, previous: Option<Extraction>)
    requires HasKey(doc, Root)
    ensures LoopStepAsWritten(doc, url, previous).Ok? <==> LoopStep(doc, url).Ok?
    ensures LoopStep(doc, url).Ok? ==> LoopStep(doc, url).value == Some(LoopStepAsWritten(doc, url, previous).value)
  {
  }

  /** Whether each parsed document carries the register message. */
  function RootFlags(docs: seq<(Node, string)>): (flags: seq<bool>)
    ensures |flags| == |docs|
    ensures forall i :: 0 <= i < |docs| ==> flags[i] == HasKey(docs[i].0, Root)
  {
    seq(|docs|, i requires 0 <= i < |docs| => HasKey(docs[i].0, Root))
  }

  /** The corrected loop over the parsed latest documents of all companies,
      each with its download URL: one result per document that carries the
      register message, in order; a raising extraction still ends the run. */
  function Batch(docs: seq<(Node, string)>): (r: Result<seq<Extraction>>)
    ensures r.Ok? <==> forall i :: 0 <= i < |docs| && HasKey(docs[i].0, Root) ==> ProcessDocument(docs[i].0, docs[i].1).Ok?
    ensures r.Ok? ==>
              var origin := Selected(RootFlags(docs));
              && |r.value| == |origin|
              && forall k :: 0 <= k < |r.value| ==> ProcessDocument(docs[origin[k]].0, docs[origin[k]].1) == Ok(r.value[k])
  {
    var outcomes :- Traverse(docs, (d: (Node, string)) => LoopStep(d.0, d.1));
    assert Flags(outcomes) == RootFlags(docs);
    Ok(Kept(outcomes))
  }
}

=== FILE: company.dfy ===
/** `extract_company_info`: the company record of a register message, with
    its identifier derived from the court code and the register reference. */
module CompanyInfo {
  import opened Wrappers
  import opened Tree
  import opened Keys
  import opened HrbPattern
  import opened Records

  // ---------------------------------------------------------------------
  // Paths from the document root

  const KopfPath: seq<string> := [Root, Kopf]
  const BasisPath: seq<string> := [Root, FachdatenRegister, BasisdatenRegister]
  const TraegerPath: seq<string> := BasisPath + [Rechtstraeger]
  const AddressPathFromRoot: seq<string> := TraegerPath + [Anschrift]
  const StructuredPath: seq<string> :=
    [Root, Grunddaten, Verfahrensdaten, Instanzdaten, Aktenzeichen, AuswahlAktenzeichen, Strukturiert]

  /** The company fields that are read along one fixed path. */
  datatype PlainField = CourtSenderCode | CurrentStatuteDate | CurrentDesignation | LegalFormCode | Location | SubjectMatter

  function PathOf(f: PlainField): (p: seq<string>)
    ensures |p| > 0
  {
    match f
    case CourtSenderCode => KopfPath + [AuswahlAbsender, AbsenderGericht, Code]
    case CurrentStatuteDate => BasisPath + [Satzungsdatum, AktuellesSatzungsdatum]
    case CurrentDesignation => TraegerPath + [Bezeichnung, BezeichnungAktuell]
    case LegalFormCode => TraegerPath + [AngabenZurRechtsform, Rechtsform, Code]
    case Location => TraegerPath + [Sitz, Ort]
    case SubjectMatter => BasisPath + [Gegenstand]
  }

  function FieldValue(c: Company, f: PlainField): Option<string> {
    match f
    case CourtSenderCode => c.courtSenderCode
    case CurrentStatuteDate => c.currentStatuteDate
    case CurrentDesignation => c.currentDesignation
    case LegalFormCode => c.legalFormCode
    case Location => c.location
    case SubjectMatter => c.subjectMatter
  }

  // ---------------------------------------------------------------------
  // The address

  datatype Address = Address(
    typeCode: Option<string>,
    street: Option<string>,
    houseNumber: Option<string>,
    postalCode: Option<string>,
    city: Option<string>,
    state: Option<string>)

  datatype AddressField = TypeCode | Street | HouseNumber | PostalCode | City | State

  function AddressPath(f: AddressField): (p: seq<string>)
    ensures |p| > 0
  {
    match f
    case TypeCode => [Anschriftstyp, Code]
    case Street => [Strasse]
    case HouseNumber => [Hausnummer]
    case PostalCode => [Postleitzahl]
    case City => [Ort]
    case State => [Staat, AuswahlStaat, Staat, Code]
  }

  function AddressValue(a: Address, f: AddressField): Option<string> {
    match f
    case TypeCode => a.typeCode
    case Street => a.street
    case HouseNumber => a.houseNumber
    case PostalCode => a.postalCode
    case City => a.city
    case State => a.state
  }

  const NoAddress: Address := Address(None, None, None, None, None, None)

  function ReadAddressFields(a: Node): (r: Result<Address>)
    ensures r.Ok? <==> forall f :: Leaf(a, AddressPath(f)).Ok?
    ensures r.Ok? ==> forall f :: Leaf(a, AddressPath(f)) == Ok(AddressValue(r.value, f))
  {
    var typeCode := Leaf(a, AddressPath(TypeCode));
    var street := Leaf(a, AddressPath(Street));
    var houseNumber := Leaf(a, AddressPath(HouseNumber));
    var postalCode := Leaf(a, AddressPath(PostalCode));
    var city := Leaf(a, AddressPath(City));
    var state := Leaf(a, AddressPath(State));
    if typeCode.Ok? && street.Ok? && houseNumber.Ok? && postalCode.Ok? && city.Ok? && state.Ok? then
      var address := Address(typeCode.value, street.value, houseNumber.value, postalCode.value, city.value, state.value);
      AllAddressFields(a, address);
      Ok(address)
    else
      Crash
  }

  lemma AllAddressFields(a: Node, address: Address)
    requires Leaf(a, AddressPath(TypeCode)) == Ok(address.typeCode)
    requires Leaf(a, AddressPath(Street)) == Ok(address.street)
    requires Leaf(a, AddressPath(HouseNumber)) == Ok(address.houseNumber)
    requires Leaf(a, AddressPath(PostalCode)) == Ok(address.postalCode)
    requires Leaf(a, AddressPath(City)) == Ok(address.city)
    requires Leaf(a, AddressPath(State)) == Ok(address.state)
    ensures forall f :: Leaf(a, AddressPath(f)) == Ok(AddressValue(address, f))
  {
    forall f ensures Leaf(a, AddressPath(f)) == Ok(AddressValue(address, f)) {
      match f
      case TypeCode =>
      case Street =>
      case HouseNumber =>
      case PostalCode =>
      case City =>
      case State =>
    }
  }

  /** An address of `{}` has every field None. */
  lemma NoAddressFields()
    ensures ReadAddressFields(Empty) == Ok(NoAddress)
  {
    forall f ensures Leaf(Empty, AddressPath(f)) == Ok(None) {
      MissingKeyYieldsNull(Empty, AddressPath(f), 0);
    }
    assert Leaf(Empty, AddressPath(TypeCode)) == Ok(None);
    assert Leaf(Empty, AddressPath(State)) == Ok(None);
  }

  /** The company address: a repeated `tns:anschrift` contributes its first
      element only, and an empty list counts as `{}`. */
  function ReadAddress(raw: Node): (r: Result<Address>)
    ensures raw.List? && |raw.items| == 0 ==> r == Ok(NoAddress)
    ensures raw.List? && |raw.items| > 0 && raw.items[0].List? ==> r == Crash
    ensures raw.List? && |raw.items| > 0 && !raw.items[0].List? ==> r == ReadAddress(raw.items[0])
    ensures !raw.List? ==> (r.Ok? <==> forall f :: Leaf(raw, AddressPath(f)).Ok?)
    ensures !raw.List? && r.Ok? ==> forall f :: Leaf(raw, AddressPath(f)) == Ok(AddressValue(r.value, f))
  {
    var a := if raw.List? then (if |raw.items| > 0 then raw.items[0] else Empty) else raw;
    NoAddressFields();
    ReadAddressFields(a)
  }

  // ---------------------------------------------------------------------
  // The register reference and its free-text fallback

  datatype RegisterRef = RegisterRef(code: Option<string>, number: string, addition: Option<string>)

  /** The structured block carries a truthy running number, so no fallback. */
  predicate HasNumber(structured: Node) {
    structured.Map? && Truthy(Get(structured, LaufendeNummer, Null).value)
  }

  /** The text the fallback parses: the block's free text when that is truthy,
      otherwise the sender's file reference from the message header. */
  function FallbackText(structured: Node, kopf: Node): (r: Result<Node>)
    ensures r.Ok? ==> structured.Map?
    ensures structured.Map? && Truthy(Get(structured, Freitext, Null).value) ==> r == Get(structured, Freitext, Null)
    ensures structured.Map? && !Truthy(Get(structured, Freitext, Null).value) ==> r == Get(kopf, AktenzeichenAbsender, Null)
  {
    var text :- Get(structured, Freitext, Null);
    if Truthy(text) then Ok(text) else Get(kopf, AktenzeichenAbsender, Null)
  }

  /** Pydantic validation of the three register fields. */
  function Validate(code: Node, number: Node, addition: Node): (r: Result<RegisterRef>)
    ensures r.Ok? <==> AsOptStr(code).Ok? && AsStr(number).Ok? && AsOptStr(addition).Ok?
    ensures r.Ok? ==> Ok(r.value.code) == AsOptStr(code) && Ok(r.value.number) == AsStr(number)
                      && Ok(r.value.addition) == AsOptStr(addition)
  {
    var c :- AsOptStr(code);
    var n :- AsStr(number);
    var a :- AsOptStr(addition);
    Ok(RegisterRef(c, n, a))
  }

  /** Register code, running number and addition. A truthy structured running
      number is taken as is. Otherwise the fallback text must be a string
      (`re.search` raises on anything else, None included); when the pattern
      matches, all three fields come from the match, and when it does not,
      the text becomes the number and code and addition stay as read. */
  function ResolveRegister(structured: Node, kopf: Node): (r: Result<RegisterRef>)
    ensures r.Ok? ==> structured.Map? && Lookup(structured, [Register, Code]).Ok?
    ensures HasNumber(structured) ==>
              (r.Ok? <==> Leaf(structured, [Register, Code]).Ok? && Leaf(structured, [Zusatz]).Ok?
                          && Get(structured, LaufendeNummer, Null).value.Str?)
    ensures HasNumber(structured) && r.Ok? ==>
              && Leaf(structured, [Register, Code]) == Ok(r.value.code)
              && Get(structured, LaufendeNummer, Null) == Ok(Str(r.value.number))
              && Leaf(structured, [Zusatz]) == Ok(r.value.addition)
    ensures structured.Map? && !HasNumber(structured) ==>
              (FallbackText(structured, kopf).Crash? || !FallbackText(structured, kopf).value.Str? ==> r == Crash)
    ensures structured.Map? && !HasNumber(structured) && FallbackText(structured, kopf).Ok?
            && FallbackText(structured, kopf).value.Str? ==>
              var t := FallbackText(structured, kopf).value.s;
              && (SearchHrb(t).Some? ==>
                    && (r.Ok? <==> Lookup(structured, [Register, Code]).Ok?)
                    && (r.Ok? ==> r.value == RegisterRef(Some(Prefix), SearchHrb(t).value.number, Some(SearchHrb(t).value.addition))))
              && (SearchHrb(t).None? ==>
                    && (r.Ok? <==> Leaf(structured, [Register, Code]).Ok? && Leaf(structured, [Zusatz]).Ok?)
                    && (r.Ok? ==> && r.value.number == t
                                  && Leaf(structured, [Register, Code]) == Ok(r.value.code)
                                  && Leaf(structured, [Zusatz]) == Ok(r.value.addition)))
  {
    var code :- Lookup(structured, [Register, Code]);
    var number := Get(structured, LaufendeNummer, Null).value;
    var addition := Get(structured, Zusatz, Null).value;
    LookupSingle(structured, Zusatz);
    if Truthy(number) then
      Validate(code, number, addition)
    else
      var text :- FallbackText(structured, kopf);
      match text
      case Str(t) =>
        (match SearchHrb(t)
         case Some(m) => Ok(RegisterRef(Some(Prefix), m.number, Some(m.addition)))
         case None => Validate(code, text, addition))
      case _ => Crash
  }

  // ---------------------------------------------------------------------
  // The identifier

  /** Truthiness of a validated optional string. */
  predicate Present(o: Option<string>) {
    o.Some? && o.value != ""
  }

  const OpencorporatesPrefix: string := "https://www.opencorporates.com/companies/de/"

  /** `f"{court}_{code}{number}{addition}"`, the addition only when truthy. */
  function CompanyNumber(court: Option<string>, ref: RegisterRef): string {
    Render(court) + "_" + Render(ref.code) + ref.number + (if Present(ref.addition) then ref.addition.value else "")
  }

  /** The layout of the identifier: the rendered court comes first and is
      followed by an underscore, then the rendered code and the number; an
      absent or empty addition adds nothing. */
  lemma CompanyNumberLayout(court: Option<string>, ref: RegisterRef)
    ensures var r := CompanyNumber(court, ref);
            && (!Present(ref.addition) ==> |r| == |Render(court)| + 1 + |Render(ref.code)| + |ref.number|)
            && (Present(ref.addition) ==> |r| == |Render(court)| + 1 + |Render(ref.code)| + |ref.number| + |ref.addition.value|)
            && r[..|Render(court)|] == Render(court) && r[|Render(court)|] == '_'
            && r[|Render(court)| + 1..|Render(court)| + 1 + |Render(ref.code)|] == Render(ref.code)
  {
  }

  function RefOf(c: Company): RegisterRef {
    RegisterRef(c.registerCode, c.registerNumber, c.registerNumberAddition)
  }

  /** The identifier and the OpenCorporates link agree with the fields they
      are built from. */
  predicate IdentifierConsistent(c: Company) {
    && c.companyNumber == CompanyNumber(c.courtSenderCode, RefOf(c))
    && c.opencorporates == OpencorporatesPrefix + c.companyNumber
  }

  // ---------------------------------------------------------------------
  // The company record

  /** Every field is read along its full path from the root; the source
      walks there through shared intermediate dictionaries, which yields the
      same values. */
  function ExtractCompany(doc: Node, filePath: string): (r: Result<Company>)
    ensures r.Ok? <==> && (forall f :: Leaf(doc, PathOf(f)).Ok?)
                       && Dig(doc, AddressPathFromRoot).Ok? && ReadAddress(Dig(doc, AddressPathFromRoot).value).Ok?
                       && Dig(doc, StructuredPath).Ok? && Dig(doc, KopfPath).Ok?
                       && ResolveRegister(Dig(doc, StructuredPath).value, Dig(doc, KopfPath).value).Ok?
    ensures r.Ok? ==> IdentifierConsistent(r.value) && r.value.filePath == filePath
    ensures r.Ok? ==> forall f :: Leaf(doc, PathOf(f)) == Ok(FieldValue(r.value, f))
    ensures r.Ok? ==> Dig(doc, AddressPathFromRoot).Ok?
                      && ReadAddress(Dig(doc, AddressPathFromRoot).value) == Ok(AddressOf(r.value))
    ensures r.Ok? ==> Dig(doc, StructuredPath).Ok? && Dig(doc, KopfPath).Ok?
                      && ResolveRegister(Dig(doc, StructuredPath).value, Dig(doc, KopfPath).value) == Ok(RefOf(r.value))
  {
    var court :- Leaf(doc, PathOf(CourtSenderCode));
    var statute :- Leaf(doc, PathOf(CurrentStatuteDate));
    var designation :- Leaf(doc, PathOf(CurrentDesignation));
    var legalForm :- Leaf(doc, PathOf(LegalFormCode));
    var location :- Leaf(doc, PathOf(Location));
    var subject :- Leaf(doc, PathOf(SubjectMatter));
    var rawAddress :- Dig(doc, AddressPathFromRoot);
    var address :- ReadAddress(rawAddress);
    var structured :- Dig(doc, StructuredPath);
    var kopf :- Dig(doc, KopfPath);
    var ref :- ResolveRegister(structured, kopf);
    var number := CompanyNumber(court, ref);
    var c := Company(
      court, statute, designation, legalForm, location,
      address.typeCode, address.street, address.houseNumber, address.postalCode, address.city, address.state,
      subject, ref.code, ref.number, ref.addition, number, filePath, OpencorporatesPrefix + number);
    AllPlainFields(doc, c);
    assert AddressOf(c) == address;
    Ok(c)
  }

  lemma AllPlainFields(doc: Node, c: Company)
    requires Leaf(doc, PathOf(CourtSenderCode)) == Ok(c.courtSenderCode)
    requires Leaf(doc, PathOf(CurrentStatuteDate)) == Ok(c.currentStatuteDate)
    requires Leaf(doc, PathOf(CurrentDesignation)) == Ok(c.currentDesignation)
    requires Leaf(doc, PathOf(LegalFormCode)) == Ok(c.legalFormCode)
    requires Leaf(doc, PathOf(Location)) == Ok(c.location)
    requires Leaf(doc, PathOf(SubjectMatter)) == Ok(c.subjectMatter)
    ensures forall f :: Leaf(doc, PathOf(f)) == Ok(FieldValue(c, f))
  {
    forall f ensures Leaf(doc, PathOf(f)) == Ok(FieldValue(c, f)) {
      match f
      case CourtSenderCode =>
      case CurrentStatuteDate =>
      case CurrentDesignation =>
      case LegalFormCode =>
      case Location =>
      case SubjectMatter =>
    }
  }

  function AddressOf(c: Company): Address {
    Address(c.addressTypeCode, c.street, c.houseNumber, c.postalCode, c.city, c.state)
  }


  // ---------------------------------------------------------------------
  // Properties

  /** A key missing at any depth of a field's path leaves that field None,
      without an error. */
  lemma MissingKeyGivesNone(doc: Node, filePath: string, f: PlainField, j: nat)
    requires j < |PathOf(f)|
    requires Dig(doc, PathOf(f)[..j]).Ok? && Dig(doc, PathOf(f)[..j]).value.Map?
    requires !HasKey(Dig(doc, PathOf(f)[..j]).value, PathOf(f)[j])
    ensures Leaf(doc, PathOf(f)) == Ok(None)
    ensures ExtractCompany(doc, filePath).Ok? ==> FieldValue(ExtractCompany(doc, filePath).value, f) == None
  {
    MissingKeyYieldsNull(doc, PathOf(f), j);
  }

  /** The same for the address fields, below a single `tns:anschrift`. */
  lemma MissingAddressKeyGivesNone(raw: Node, f: AddressField, j: nat)
    requires !raw.List?
    requires j < |AddressPath(f)|
    requires Dig(raw, AddressPath(f)[..j]).Ok? && Dig(raw, AddressPath(f)[..j]).value.Map?
    requires !HasKey(Dig(raw, AddressPath(f)[..j]).value, AddressPath(f)[j])
    ensures Leaf(raw, AddressPath(f)) == Ok(None)
    ensures ReadAddress(raw).Ok? ==> AddressValue(ReadAddress(raw).value, f) == None
  {
    MissingKeyYieldsNull(raw, AddressPath(f), j);
  }

  /** With neither a running number, nor a free text, nor a sender
      reference, `re.search` receives None and the extraction raises. */
  lemma NoReferenceCrashes(structured: Node, kopf: Node)
    requires structured.Map? && kopf.Map?
    requires !HasKey(structured, LaufendeNummer) && !HasKey(structured, Freitext)
    requires !HasKey(kopf, AktenzeichenAbsender)
    ensures ResolveRegister(structured, kopf) == Crash
  {
  }

  /** A message whose root element is empty is not extracted: the
      extraction is not total over truncated trees. */
  lemma EmptyMessageCrashes(filePath: string)
    ensures ExtractCompany(Map([]), filePath) == Crash
    ensures ExtractCompany(Map([(Root, Empty)]), filePath) == Crash
  {
    EmptyPaths(Map([]));
    EmptyPaths(Map([(Root, Empty)]));
    NoReferenceCrashes(Empty, Empty);
  }

  lemma EmptyPaths(doc: Node)
    requires doc == Map([]) || doc == Map([(Root, Empty)])
    ensures Dig(doc, StructuredPath) == Ok(Empty) && Dig(doc, KopfPath) == Ok(Empty)
  {
    if doc == Map([]) {
      assert Get(doc, Root, Empty) == Ok(Empty);
    } else {
      assert Get(doc, Root, Empty) == Ok(Empty);
    }
    assert StructuredPath == [Root] + StructuredPath[1..];
    assert KopfPath == [Root] + KopfPath[1..];
    DigAppend(doc, [Root], StructuredPath[1..]);
    DigAppend(doc, [Root], KopfPath[1..]);
    DigEmpty(StructuredPath[1..]);
    DigEmpty(KopfPath[1..]);
  }

  // ---------------------------------------------------------------------
  // Examples

  /** A block holding only a free text `t`: the fallback parses `t`. */
  lemma OnlyFreeText(structured: Node, t: string)
    requires structured == Map([(Freitext, Str(t))]) && t != ""
    ensures !HasNumber(structured) && FallbackText(structured, Empty) == Ok(Str(t))
    ensures Lookup(structured, [Register, Code]) == Ok(Null) && Leaf(structured, [Register, Code]) == Ok(None)
    ensures Leaf(structured, [Zusatz]) == Ok(None)
  {
    assert Get(structured, Freitext, Null) == Ok(Str(t));
    assert !HasKey(structured, LaufendeNummer);
    assert !HasKey(structured, Register) && !HasKey(structured, Zusatz);
    assert [Register, Code][..0] == [];
    MissingKeyYieldsNull(structured, [Register, Code], 0);
    MissingKeyYieldsNull(structured, [Zusatz], 0);
  }

  /** A free text that matches fixes code, number and addition. */
  lemma ExampleFreeTextMatch(structured: Node)
    requires structured == Map([(Freitext, Str("HRB 12345 B"))])
    ensures ResolveRegister(structured, Empty) == Ok(RegisterRef(Some("HRB"), "12345", Some("B")))
  {
    OnlyFreeText(structured, "HRB 12345 B");
    ExampleFullMatch("HRB 12345 B");
  }

  /** A free text that does not match becomes the number, and code and
      addition stay None. */
  lemma ExampleFreeTextNoMatch(structured: Node)
    requires structured == Map([(Freitext, Str("HRA 1 X"))])
    ensures ResolveRegister(structured, Empty) == Ok(RegisterRef(None, "HRA 1 X", None))
  {
    OnlyFreeText(structured, "HRA 1 X");
    ExampleOtherRegisterType("HRA 1 X");
  }

  /** A minimal message that is extracted: a court code in the header and
      a structured reference with register code and running number. Every
      other field is missing and therefore None. */
  lemma ExampleMinimalMessage(doc: Node, kopf: Node, structured: Node, filePath: string)
    requires kopf == Single(AuswahlAbsender, Single(AbsenderGericht, Single(Code, Str("D2601"))))
    requires structured == Map([(Register, Single(Code, Str("HRB"))), (LaufendeNummer, Str("12345"))])
    requires doc == MinimalMessage(kopf, structured)
    ensures ExtractCompany(doc, filePath).Ok?
    ensures ExtractCompany(doc, filePath).value.companyNumber == "D2601_HRB12345"
    ensures ExtractCompany(doc, filePath).value.registerCode == Some("HRB")
    ensures ExtractCompany(doc, filePath).value.registerNumberAddition == None
    ensures ExtractCompany(doc, filePath).value.currentDesignation == None
  {
    MinimalMessagePaths(doc, kopf, structured);
    MinimalMessageFields(doc, kopf, filePath);
    MinimalReference(kopf, structured);
    var ref := RegisterRef(Some("HRB"), "12345", None);
    OnlyCourtAndReference(doc, filePath, Some("D2601"), ref);
    ExampleIdentifiers();
  }

  /** A message with a court code and a register reference but no register
      data at all is extracted with every other field None. */
  lemma OnlyCourtAndReference(doc: Node, filePath: string, court: Option<string>, ref: RegisterRef)
    requires Leaf(doc, PathOf(CourtSenderCode)) == Ok(court)
    requires forall f :: f != CourtSenderCode ==> Leaf(doc, PathOf(f)) == Ok(None)
    requires Dig(doc, AddressPathFromRoot) == Ok(Empty)
    requires Dig(doc, StructuredPath).Ok? && Dig(doc, KopfPath).Ok?
    requires ResolveRegister(Dig(doc, StructuredPath).value, Dig(doc, KopfPath).value) == Ok(ref)
    ensures ExtractCompany(doc, filePath).Ok?
    ensures ExtractCompany(doc, filePath).value.courtSenderCode == court
    ensures forall f :: f != CourtSenderCode ==> FieldValue(ExtractCompany(doc, filePath).value, f) == None
    ensures AddressOf(ExtractCompany(doc, filePath).value) == NoAddress
    ensures ExtractCompany(doc, filePath).value.currentDesignation == None
    ensures RefOf(ExtractCompany(doc, filePath).value) == ref
    ensures ExtractCompany(doc, filePath).value.companyNumber == CompanyNumber(court, ref)
  {
    NoAddressFields();
    assert ReadAddress(Empty) == Ok(NoAddress);
    assert Leaf(doc, PathOf(CurrentDesignation)) == Ok(None);
  }

  /** The register message holding only the given header and, under the
      proceedings data, the given structured reference. */
  function MinimalMessage(kopf: Node, structured: Node): Node {
    Single(Root, MinimalBody(kopf, structured))
  }

  function MinimalBody(kopf: Node, structured: Node): Node {
    Map([(Kopf, kopf), (Grunddaten, MinimalProceedings(structured))])
  }

  function MinimalProceedings(structured: Node): Node {
    Single(Verfahrensdaten, Single(Instanzdaten, Single(Aktenzeichen, Single(AuswahlAktenzeichen, Single(Strukturiert, structured)))))
  }

  lemma MinimalProceedingsPath(structured: Node)
    ensures Dig(MinimalProceedings(structured), StructuredPath[2..]) == Ok(structured)
  {
    var choice := Single(Strukturiert, structured);
    var reference := Single(AuswahlAktenzeichen, choice);
    var instance := Single(Aktenzeichen, reference);
    var proceedings := Single(Instanzdaten, instance);
    DigStep(choice, Strukturiert, structured, [], structured);
    DigStep(reference, AuswahlAktenzeichen, choice, [Strukturiert], structured);
    DigStep(instance, Aktenzeichen, reference, [AuswahlAktenzeichen, Strukturiert], structured);
    DigStep(proceedings, Instanzdaten, instance, [Aktenzeichen, AuswahlAktenzeichen, Strukturiert], structured);
    DigStep(MinimalProceedings(structured), Verfahrensdaten, proceedings, [Instanzdaten, Aktenzeichen, AuswahlAktenzeichen, Strukturiert], structured);
    assert StructuredPath[2..] == [Verfahrensdaten, Instanzdaten, Aktenzeichen, AuswahlAktenzeichen, Strukturiert];
  }

  lemma MinimalMessagePaths(doc: Node, kopf: Node, structured: Node)
    requires doc == MinimalMessage(kopf, structured)
    ensures Dig(doc, [Root]).Ok? && Dig(doc, [Root]).value.Map? && !HasKey(Dig(doc, [Root]).value, FachdatenRegister)
    ensures Dig(doc, KopfPath) == Ok(kopf) && Dig(doc, StructuredPath) == Ok(structured)
    ensures Dig(doc, AddressPathFromRoot) == Ok(Empty)
  {
    var msg := MinimalBody(kopf, structured);
    DigStep(doc, Root, msg, [], msg);
    assert [Root] + [] == [Root];
    MinimalBodyKeys(kopf, structured);
    MinimalHeaderPath(doc, msg, kopf);
    MinimalProceedingsPath(structured);
    MinimalStructuredPath(doc, msg, structured);
    MinimalAddressPath(doc, msg);
  }

  lemma MinimalHeaderPath(doc: Node, msg: Node, kopf: Node)
    requires Get(doc, Root, Empty) == Ok(msg) && Get(msg, Kopf, Empty) == Ok(kopf)
    ensures Dig(doc, KopfPath) == Ok(kopf)
  {
    DigStep(msg, Kopf, kopf, [], kopf);
    DigStep(doc, Root, msg, [Kopf], kopf);
    assert KopfPath == [Root] + [Kopf];
  }

  lemma MinimalStructuredPath(doc: Node, msg: Node, structured: Node)
    requires Get(doc, Root, Empty) == Ok(msg) && Get(msg, Grunddaten, Empty) == Ok(MinimalProceedings(structured))
    requires Dig(MinimalProceedings(structured), StructuredPath[2..]) == Ok(structured)
    ensures Dig(doc, StructuredPath) == Ok(structured)
  {
    DigStep(msg, Grunddaten, MinimalProceedings(structured), StructuredPath[2..], structured);
    DigStep(doc, Root, msg, [Grunddaten] + StructuredPath[2..], structured);
    assert StructuredPath == [Root] + ([Grunddaten] + StructuredPath[2..]);
  }

  lemma MinimalBodyKeys(kopf: Node, structured: Node)
    ensures Get(MinimalBody(kopf, structured), Kopf, Empty) == Ok(kopf)
    ensures Get(MinimalBody(kopf, structured), Grunddaten, Empty) == Ok(MinimalProceedings(structured))
    ensures Get(MinimalBody(kopf, structured), FachdatenRegister, Empty) == Ok(Empty)
  {
    assert Kopf != Grunddaten by { assert Kopf[4] != Grunddaten[4]; }
    assert Kopf != FachdatenRegister by { assert Kopf[4] != FachdatenRegister[4]; }
    assert Grunddaten != FachdatenRegister by { assert Grunddaten[4] != FachdatenRegister[4]; }
    GetOfPair(Kopf, kopf, Grunddaten, MinimalProceedings(structured), FachdatenRegister);
  }

  lemma MinimalAddressPath(doc: Node, msg: Node)
    requires Get(doc, Root, Empty) == Ok(msg) && Get(msg, FachdatenRegister, Empty) == Ok(Empty)
    ensures Dig(doc, AddressPathFromRoot) == Ok(Empty)
  {
    var below := AddressPathFromRoot[2..];
    DigEmpty(below);
    DigStep(msg, FachdatenRegister, Empty, below, Empty);
    DigStep(doc, Root, msg, [FachdatenRegister] + below, Empty);
    assert AddressPathFromRoot == [Root] + ([FachdatenRegister] + below);
  }

  /** The court code is read from the header; every field under the missing
      register data is None. */
  lemma MinimalMessageFields(doc: Node, kopf: Node, filePath: string)
    requires kopf == Single(AuswahlAbsender, Single(AbsenderGericht, Single(Code, Str("D2601"))))
    requires Dig(doc, [Root]).Ok? && Dig(doc, [Root]).value.Map? && !HasKey(Dig(doc, [Root]).value, FachdatenRegister)
    requires Dig(doc, KopfPath) == Ok(kopf)
    ensures Leaf(doc, PathOf(CourtSenderCode)) == Ok(Some("D2601"))
    ensures forall f :: f != CourtSenderCode ==> Leaf(doc, PathOf(f)) == Ok(None)
  {
    MinimalCourt(doc, kopf);
    forall f | f != CourtSenderCode
      ensures Leaf(doc, PathOf(f)) == Ok(None)
    {
      assert PathOf(f)[..1] == [Root] && PathOf(f)[1] == FachdatenRegister;
      MissingKeyYieldsNull(doc, PathOf(f), 1);
    }
  }

  lemma MinimalCourt(doc: Node, kopf: Node)
    requires kopf == Single(AuswahlAbsender, Single(AbsenderGericht, Single(Code, Str("D2601"))))
    requires Dig(doc, KopfPath) == Ok(kopf)
    ensures Leaf(doc, PathOf(CourtSenderCode)) == Ok(Some("D2601"))
  {
    var sender := Single(AbsenderGericht, Single(Code, Str("D2601")));
    LeafAppend(kopf, [AuswahlAbsender], [AbsenderGericht, Code]);
    assert [AuswahlAbsender] + [AbsenderGericht, Code] == [AuswahlAbsender, AbsenderGericht, Code];
    DigStep(kopf, AuswahlAbsender, sender, [], sender);
    assert [AuswahlAbsender] + [] == [AuswahlAbsender];
    LookupPair(sender, AbsenderGericht, Code);
    LeafAppend(doc, KopfPath, [AuswahlAbsender, AbsenderGericht, Code]);
    assert PathOf(CourtSenderCode) == KopfPath + [AuswahlAbsender, AbsenderGericht, Code];
  }

  /** A truthy running number is taken with the code beside it. */
  lemma MinimalReference(kopf: Node, structured: Node)
    requires structured == Map([(Register, Single(Code, Str("HRB"))), (LaufendeNummer, Str("12345"))])
    ensures ResolveRegister(structured, kopf) == Ok(RegisterRef(Some("HRB"), "12345", None))
  {
    LookupPair(structured, Register, Code);
    LookupSingle(structured, Zusatz);
    assert Register != LaufendeNummer by { assert Register[4] != LaufendeNummer[4]; }
    assert structured.kvs[1..] == [(LaufendeNummer, Str("12345"))];
    assert KeyIndex(structured.kvs, LaufendeNummer) == Some(1);
    assert HasNumber(structured);
  }

  /** The addition is appended; an absent code is rendered as "None". */
  lemma ExampleIdentifiers()
    ensures CompanyNumber(Some("D2601"), RegisterRef(Some("HRB"), "12345", Some("B"))) == "D2601_HRB12345B"
    ensures CompanyNumber(Some("D2601"), RegisterRef(Some("HRB"), "12345", None)) == "D2601_HRB12345"
    ensures CompanyNumber(Some("D2601"), RegisterRef(None, "HRA 1 X", None)) == "D2601_NoneHRA 1 X"
    ensures CompanyNumber(None, RegisterRef(Some("HRB"), "7", Some(""))) == "None_HRB7"
  {
    assert Render(Some("D2601")) == "D2601" && Render(Some("HRB")) == "HRB" && Render(None) == "None";
    assert Present(Some("B")) && !Present(Some("")) && !Present(None);
  }
}

=== FILE: entries.dfy ===
/** `extract_entries`: the register entries of the extract, one per
    `tns:eintragungstext` item that is a dictionary. */
module Entries {
  import opened Wrappers
  import opened Tree
  import opened Keys
  import opened Records
  import opened Positions

  const ExtractPath: seq<string> := [Root, FachdatenRegister, Auszug]

  /** The record of one entry; the source calls it on dictionaries only. */
  function EntryOf(e: Node, companyNumber: string, filePath: string): (r: Result<RegisterEntry>)
    requires e.Map?
    ensures r.Ok? <==> && Leaf(e, [Spalte]).Ok? && Leaf(e, [Position]).Ok? && Leaf(e, [LaufendeNummer]).Ok?
                       && Leaf(e, [Eintragungsart, Code]).Ok? && Leaf(e, [Text]).Ok?
    ensures r.Ok? ==> r.value.companyNumber == companyNumber && r.value.filePath == filePath
    ensures r.Ok? ==> && Leaf(e, [Spalte]) == Ok(r.value.column)
                      && Leaf(e, [Position]) == Ok(r.value.position)
                      && Leaf(e, [LaufendeNummer]) == Ok(r.value.runningNumber)
                      && Leaf(e, [Eintragungsart, Code]) == Ok(r.value.entryTypeCode)
                      && Leaf(e, [Text]) == Ok(r.value.text)
    ensures Get(e, Eintragungsart, Empty) == Ok(Null) ==> r == Crash
  {
    var column :- Leaf(e, [Spalte]);
    var position :- Leaf(e, [Position]);
    var runningNumber :- Leaf(e, [LaufendeNummer]);
    var entryType :- Leaf(e, [Eintragungsart, Code]);
    var text :- Leaf(e, [Text]);
    LookupPair(e, Eintragungsart, Code);
    Ok(RegisterEntry(column, position, runningNumber, entryType, text, companyNumber, filePath))
  }

  /** One pass of the loop body: dictionaries produce an entry, anything else
      is skipped. */
  function EntryStep(e: Node, companyNumber: string, filePath: string): (r: Result<Option<RegisterEntry>>)
    ensures !e.Map? ==> r == Ok(None)
    ensures e.Map? ==> (r.Ok? <==> EntryOf(e, companyNumber, filePath).Ok?)
    ensures e.Map? && r.Ok? ==> r.value == Some(EntryOf(e, companyNumber, filePath).value)
  {
    if e.Map? then
      var entry :- EntryOf(e, companyNumber, filePath);
      Ok(Some(entry))
    else
      Ok(None)
  }

  /** Which items are dictionaries. */
  function MapFlags(items: seq<Node>): (flags: seq<bool>)
    ensures |flags| == |items|
    ensures forall i :: 0 <= i < |items| ==> flags[i] == items[i].Map?
  {
    seq(|items|, i requires 0 <= i < |items| => items[i].Map?)
  }

  /** The loop over the items: exactly one entry per dictionary, in order. */
  function CollectEntries(items: seq<Node>, companyNumber: string, filePath: string): (r: Result<seq<RegisterEntry>>)
    ensures r.Ok? <==> forall i :: 0 <= i < |items| && items[i].Map? ==> EntryOf(items[i], companyNumber, filePath).Ok?
    ensures r.Ok? ==>
              var origin := Selected(MapFlags(items));
              && |r.value| == |origin|
              && forall k :: 0 <= k < |r.value| ==> EntryOf(items[origin[k]], companyNumber, filePath) == Ok(r.value[k])
    ensures r.Ok? ==> forall k :: 0 <= k < |r.value| ==>
              r.value[k].companyNumber == companyNumber && r.value[k].filePath == filePath
  {
    var outcomes :- Traverse(items, e => EntryStep(e, companyNumber, filePath));
    assert Flags(outcomes) == MapFlags(items);
    Ok(Kept(outcomes))
  }

  /** `tns:eintragungstext`, or `[]` when it is missing. */
  function Transcripts(doc: Node): (r: Result<Node>)
    ensures r.Ok? ==> Dig(doc, ExtractPath).Ok? && Dig(doc, ExtractPath).value.Map?
  {
    var auszug :- Dig(doc, ExtractPath);
    Get(auszug, Eintragungstext, List([]))
  }

  function ExtractEntries(doc: Node, companyNumber: string, filePath: string): (r: Result<seq<RegisterEntry>>)
    ensures r.Ok? ==> forall k :: 0 <= k < |r.value| ==>
              r.value[k].companyNumber == companyNumber && r.value[k].filePath == filePath
    ensures r.Ok? ==> Transcripts(doc).Ok? && Iter(Transcripts(doc).value).Ok?
                      && CollectEntries(Iter(Transcripts(doc).value).value, companyNumber, filePath) == r
    ensures Transcripts(doc).Ok? && Iter(Transcripts(doc).value).Ok? ==>
              r == CollectEntries(Iter(Transcripts(doc).value).value, companyNumber, filePath)
  {
    var transcripts :- Transcripts(doc);
    var items :- Iter(transcripts);
    CollectEntries(items, companyNumber, filePath)
  }

  // ---------------------------------------------------------------------
  // Properties

  /** A missing `tns:fachdatenRegister`, `tns:auszug` or
      `tns:eintragungstext` yields no entries and no error. */
  lemma MissingTranscriptsGiveNoEntries(doc: Node, companyNumber: string, filePath: string, j: nat)
    requires 0 < j <= |ExtractPath|
    requires Dig(doc, ExtractPath[..j]).Ok? && Dig(doc, ExtractPath[..j]).value.Map?
    requires j < |ExtractPath| ==> !HasKey(Dig(doc, ExtractPath[..j]).value, ExtractPath[j])
    requires j == |ExtractPath| ==> !HasKey(Dig(doc, ExtractPath[..j]).value, Eintragungstext)
    ensures ExtractEntries(doc, companyNumber, filePath) == Ok([])
  {
    if j < |ExtractPath| {
      var m := Dig(doc, ExtractPath[..j]).value;
      assert ExtractPath == ExtractPath[..j] + ([ExtractPath[j]] + ExtractPath[j + 1..]);
      DigAppend(doc, ExtractPath[..j], [ExtractPath[j]] + ExtractPath[j + 1..]);
      assert Get(m, ExtractPath[j], Empty) == Ok(Empty);
      assert ([ExtractPath[j]] + ExtractPath[j + 1..])[1..] == ExtractPath[j + 1..];
      DigEmpty(ExtractPath[j + 1..]);
    } else {
      assert ExtractPath[..j] == ExtractPath;
    }
    assert Transcripts(doc) == Ok(List([]));
  }

  /** An entry dictionary holding none of the keys the extractor reads
      (`{}`, or an element carrying only attributes) yields an entry whose
      fields are all None. */
  lemma EmptyEntryFields(e: Node, companyNumber: string, filePath: string)
    requires e.Map? && !HasKey(e, Spalte) && !HasKey(e, Position) && !HasKey(e, LaufendeNummer)
    requires !HasKey(e, Eintragungsart) && !HasKey(e, Text)
    ensures EntryOf(e, companyNumber, filePath) == Ok(RegisterEntry(None, None, None, None, None, companyNumber, filePath))
  {
    MissingKeyYieldsNull(e, [Spalte], 0);
    MissingKeyYieldsNull(e, [Position], 0);
    MissingKeyYieldsNull(e, [LaufendeNummer], 0);
    MissingKeyYieldsNull(e, [Eintragungsart, Code], 0);
    MissingKeyYieldsNull(e, [Text], 0);
  }

  /** An empty `tns:eintragungstext` element is None after parsing; it is
      not a dictionary and is skipped, so a list of such items yields no
      entries and no error. */
  lemma NullEntrySkipped(doc: Node, companyNumber: string, filePath: string)
    requires Transcripts(doc).Ok? && Transcripts(doc).value.List?
    requires forall i :: 0 <= i < |Transcripts(doc).value.items| ==> Transcripts(doc).value.items[i] == Null
    ensures ExtractEntries(doc, companyNumber, filePath) == Ok([])
  {
    NoneSelected(MapFlags(Transcripts(doc).value.items));
  }

  /** A `tns:eintragungstext` list holding one `{}` yields exactly one entry,
      every field None, stamped with the identifier and the path. */
  lemma ExampleOneEmptyEntry(doc: Node, companyNumber: string, filePath: string)
    requires Transcripts(doc) == Ok(List([Empty]))
    ensures ExtractEntries(doc, companyNumber, filePath) == Ok([RegisterEntry(None, None, None, None, None, companyNumber, filePath)])
  {
    EmptyEntryFields(Empty, companyNumber, filePath);
    OneEntryCollected(Empty, RegisterEntry(None, None, None, None, None, companyNumber, filePath), companyNumber, filePath);
    assert Iter(List([Empty])) == Ok([Empty]);
  }

  /** A list holding one entry dictionary yields that dictionary's entry. */
  lemma OneEntryCollected(e: Node, entry: RegisterEntry, companyNumber: string, filePath: string)
    requires e.Map? && EntryOf(e, companyNumber, filePath) == Ok(entry)
    ensures CollectEntries([e], companyNumber, filePath) == Ok([entry])
  {
    var r := CollectEntries([e], companyNumber, filePath);
    SingleFlag(e);
    SelectedOne();
    assert r.Ok?;
    assert |r.value| == 1 && r.value[0] == entry;
    assert r.value == [entry];
  }

  lemma SingleFlag(e: Node)
    requires e.Map?
    ensures MapFlags([e]) == [true]
  {
  }

  /** A single `tns:eintragungstext` is a dictionary; iterating it yields its
      keys, which are strings and therefore skipped: no entries. */
  lemma SingleTranscriptGivesNoEntries(doc: Node, companyNumber: string, filePath: string)
    requires Transcripts(doc).Ok? && Transcripts(doc).value.Map?
    ensures ExtractEntries(doc, companyNumber, filePath) == Ok([])
  {
    var items := Iter(Transcripts(doc).value).value;
    assert forall i :: 0 <= i < |items| ==> !items[i].Map?;
    NoneSelected(MapFlags(items));
  }
}

=== FILE: hrb_pattern.dfy ===
/** The free-text register number pattern `(HRB)\s+(\d+)\s+([A-Z]+)` under
    `re.search`: the leftmost starting position at which the pattern matches,
    and there the match the backtracking engine tries first (every quantifier
    is greedy).

    `\s` and `\d` are taken in their ASCII sense: whitespace is space, tab,
    line feed, vertical tab, form feed and carriage return; a digit is 0-9.
 */
module HrbPattern {
  import opened Wrappers

  datatype CharClass = Space | Digit | Upper

  predicate InClass(c: char, cls: CharClass) {
    match cls
    case Space => c == ' ' || (9 <= c as int <= 13)
    case Digit => '0' <= c <= '9'
    case Upper => 'A' <= c <= 'Z'
  }

  /** Group 1 of the pattern, matched literally. */
  const Prefix: string := "HRB"

  /** A successful search: the matched slice `s[start..end]` and groups 2 and 3. */
  datatype HrbMatch = HrbMatch(start: nat, end: nat, number: string, addition: string)

  /** Length of the longest run of `cls` characters starting at `i`. */
  function Span(s: string, i: nat, cls: CharClass): (n: nat)
    requires i <= |s|
    ensures i + n <= |s|
    ensures i + n == |s| || !InClass(s[i + n], cls)
    decreases |s| - i
  {
    if i < |s| && InClass(s[i], cls) then 1 + Span(s, i + 1, cls) else 0
  }

  /** Every character the run covers is in the class. */
  lemma {:induction false} SpanCovers(s: string, i: nat, cls: CharClass)
    requires i <= |s|
    ensures forall k :: i <= k < i + Span(s, i, cls) ==> InClass(s[k], cls)
    decreases |s| - i
  {
    if i < |s| && InClass(s[i], cls) {
      SpanCovers(s, i + 1, cls);
    }
  }

  // ---------------------------------------------------------------------
  // The attempt anchored at one position

  predicate PrefixAt(s: string, i: nat) {
    i + 3 <= |s| && s[i..i + 3] == Prefix
  }

  /** Start of group 2: after "HRB" and the whitespace run that follows. */
  function NumberStart(s: string, i: nat): (b: nat)
    requires PrefixAt(s, i)
    ensures i + 3 <= b <= |s|
  {
    i + 3 + Span(s, i + 3, Space)
  }

  /** End of group 2: after the digit run. */
  function NumberEnd(s: string, i: nat): (c: nat)
    requires PrefixAt(s, i)
    ensures NumberStart(s, i) <= c <= |s|
  {
    NumberStart(s, i) + Span(s, NumberStart(s, i), Digit)
  }

  /** Start of group 3: after the second whitespace run. */
  function AdditionStart(s: string, i: nat): (e: nat)
    requires PrefixAt(s, i)
    ensures NumberEnd(s, i) <= e <= |s|
  {
    NumberEnd(s, i) + Span(s, NumberEnd(s, i), Space)
  }

  /** End of group 3 and of the match: after the letter run. */
  function AdditionEnd(s: string, i: nat): (end: nat)
    requires PrefixAt(s, i)
    ensures AdditionStart(s, i) <= end <= |s|
  {
    AdditionStart(s, i) + Span(s, AdditionStart(s, i), Upper)
  }

  /** Every `+` of the pattern found at least one character. */
  predicate AllRunsFound(s: string, i: nat)
    requires PrefixAt(s, i)
  {
    && i + 3 < NumberStart(s, i)
    && NumberStart(s, i) < NumberEnd(s, i)
    && NumberEnd(s, i) < AdditionStart(s, i)
    && AdditionStart(s, i) < AdditionEnd(s, i)
  }

  /** The match attempt anchored at `i`. Each run is taken whole: a shorter
      whitespace or digit run would leave a character the next item cannot
      match, and the final letter run is greedy. */
  function MatchAt(s: string, i: nat): (r: Option<HrbMatch>)
    requires i <= |s|
    ensures r.Some? ==> r.value.start == i < r.value.end <= |s|
  {
    if PrefixAt(s, i) && AllRunsFound(s, i) then
      Some(HrbMatch(i, AdditionEnd(s, i), s[NumberStart(s, i)..NumberEnd(s, i)], s[AdditionStart(s, i)..AdditionEnd(s, i)]))
    else None
  }

  // ---------------------------------------------------------------------
  // The pattern's language, stated independently of the matcher

  ghost predicate IsRun(w: string, cls: CharClass) {
    |w| > 0 && forall k :: 0 <= k < |w| ==> InClass(w[k], cls)
  }

  /** `t` is a whole match of the pattern whose groups 2 and 3 are `number`
      and `addition`. */
  ghost predicate InPattern(t: string, number: string, addition: string) {
    && IsRun(number, Digit)
    && IsRun(addition, Upper)
    && exists w1, w2 :: Splits(t, w1, number, w2, addition)
  }

  ghost predicate Splits(t: string, w1: string, number: string, w2: string, addition: string) {
    IsRun(w1, Space) && IsRun(w2, Space) && t == Prefix + (w1 + (number + (w2 + addition)))
  }

  ghost predicate MatchesAt(s: string, i: int, j: int, number: string, addition: string) {
    0 <= i <= j <= |s| && InPattern(s[i..j], number, addition)
  }

  ghost predicate MatchStartsAt(s: string, i: int) {
    exists j, number, addition :: MatchesAt(s, i, j, number, addition)
  }

  // ---------------------------------------------------------------------
  // The matcher agrees with the language

  /** A run of `cls` characters sits at `x`: the longest run is at least as
      long, and exactly as long when the next character is not in `cls`. */
  lemma {:induction false} RunSpan(s: string, x: nat, w: string, cls: CharClass)
    requires x + |w| <= |s| && s[x..x + |w|] == w
    requires forall k :: 0 <= k < |w| ==> InClass(w[k], cls)
    ensures Span(s, x, cls) >= |w|
    ensures x + |w| < |s| && !InClass(s[x + |w|], cls) ==> Span(s, x, cls) == |w|
    decreases |w|
  {
    if |w| > 0 {
      assert s[x] == w[0];
      assert s[x + 1..x + |w|] == w[1..];
      RunSpan(s, x + 1, w[1..], cls);
    }
  }

  /** A run of `cls` followed by a character of another class: the longest
      run at `x` is exactly that run. */
  lemma RunThen(s: string, x: nat, z: nat, w: string, rest: string, cls: CharClass, next: CharClass)
    requires x <= z <= |s| && s[x..z] == w + rest
    requires IsRun(w, cls) && |rest| > 0 && InClass(rest[0], next)
    requires cls != next && (cls == Space || next == Space)
    ensures x + |w| < z && s[x..x + |w|] == w && s[x + |w|..z] == rest
    ensures Span(s, x, cls) == |w|
  {
    SliceOfConcat(s, x, z, w, rest);
    assert s[x + |w|] == rest[0];
    RunSpan(s, x, w, cls);
  }

  lemma SplitSlice(s: string, x: nat, y: nat, z: nat)
    requires x <= y <= z <= |s|
    ensures s[x..z] == s[x..y] + s[y..z]
  {
  }

  lemma SliceOfConcat(s: string, x: nat, z: nat, u: string, v: string)
    requires x <= z <= |s|
    requires s[x..z] == u + v
    ensures x + |u| <= z
    ensures s[x..x + |u|] == u && s[x + |u|..z] == v
  {
    assert s[x..z][..|u|] == u;
    assert s[x..z][|u|..] == v;
  }

  /** The run found by `Span` is a run of its class. */
  lemma SpanIsRun(s: string, x: nat, y: nat, cls: CharClass)
    requires x < y <= |s| && y == x + Span(s, x, cls)
    ensures IsRun(s[x..y], cls)
  {
    SpanCovers(s, x, cls);
    assert forall k :: 0 <= k < y - x ==> s[x..y][k] == s[x + k];
  }

  /** Five adjacent pieces of `s` that have the shapes of the pattern's
      items make a match. */
  lemma ComposeMatch(s: string, i: nat, b: nat, c: nat, e: nat, end: nat)
    requires i + 3 <= b <= c <= e <= end <= |s|
    requires s[i..i + 3] == Prefix
    requires IsRun(s[i + 3..b], Space) && IsRun(s[b..c], Digit)
    requires IsRun(s[c..e], Space) && IsRun(s[e..end], Upper)
    ensures MatchesAt(s, i, end, s[b..c], s[e..end])
  {
    var a := i + 3;
    SplitSlice(s, i, a, end);
    SplitSlice(s, a, b, end);
    SplitSlice(s, b, c, end);
    SplitSlice(s, c, e, end);
    assert Splits(s[i..end], s[a..b], s[b..c], s[c..e], s[e..end]);
  }

  /** Whatever the anchored attempt returns is a match of the pattern. */
  lemma MatchAtSound(s: string, i: nat)
    requires i <= |s|
    requires MatchAt(s, i).Some?
    ensures MatchAt(s, i).value.start == i
    ensures MatchesAt(s, i, MatchAt(s, i).value.end, MatchAt(s, i).value.number, MatchAt(s, i).value.addition)
  {
    var b, c, e, end := NumberStart(s, i), NumberEnd(s, i), AdditionStart(s, i), AdditionEnd(s, i);
    assert AllRunsFound(s, i);
    SpanIsRun(s, i + 3, b, Space);
    SpanIsRun(s, b, c, Digit);
    SpanIsRun(s, c, e, Space);
    SpanIsRun(s, e, end, Upper);
    ComposeMatch(s, i, b, c, e, end);
  }

  /** Any match anchored at `i` is found by the anchored attempt, with the same
      number and an end no shorter. */
  lemma MatchAtComplete(s: string, i: nat, j: nat, number: string, addition: string)
    requires i <= j <= |s|
    requires MatchesAt(s, i, j, number, addition)
    ensures MatchAt(s, i).Some?
    ensures MatchAt(s, i).value.number == number
    ensures j <= MatchAt(s, i).value.end
  {
    var w1, w2 :| Splits(s[i..j], w1, number, w2, addition);
    var a := i + 3;
    var b := a + |w1|;
    var c := b + |number|;
    var e := c + |w2|;
    SliceOfConcat(s, i, j, Prefix, w1 + (number + (w2 + addition)));
    assert PrefixAt(s, i);
    RunThen(s, a, j, w1, number + (w2 + addition), Space, Digit);
    assert NumberStart(s, i) == b;
    RunThen(s, b, j, number, w2 + addition, Digit, Space);
    assert NumberEnd(s, i) == c;
    RunThen(s, c, j, w2, addition, Space, Upper);
    assert AdditionStart(s, i) == e;
    assert |s[e..j]| == |addition|;
    RunSpan(s, e, addition, Upper);
  }

  lemma NoMatchAt(s: string, i: nat)
    requires i <= |s|
    requires MatchAt(s, i).None?
    ensures !MatchStartsAt(s, i)
  {
    if MatchStartsAt(s, i) {
      var j, number, addition :| MatchesAt(s, i, j, number, addition);
      MatchAtComplete(s, i, j, number, addition);
    }
  }

  /** No anchored attempt succeeds below `n`, so no match starts there. */
  lemma NoMatchBelow(s: string, lo: nat, n: nat)
    requires lo <= n <= |s| + 1
    requires forall k :: lo <= k < n ==> MatchAt(s, k).None?
    ensures forall k :: lo <= k < n ==> !MatchStartsAt(s, k)
  {
    forall k | lo <= k < n
      ensures !MatchStartsAt(s, k)
    {
      NoMatchAt(s, k);
    }
  }

  /** The first position at or after `i` holding a value. */
  function FirstSome<T>(xs: seq<Option<T>>, i: nat): (r: Option<nat>)
    requires i <= |xs|
    ensures r.None? ==> forall k :: i <= k < |xs| ==> xs[k].None?
    ensures r.Some? ==> i <= r.value < |xs| && xs[r.value].Some?
    ensures r.Some? ==> forall k :: i <= k < r.value ==> xs[k].None?
    decreases |xs| - i
  {
    if i == |xs| then None
    else if xs[i].Some? then Some(i)
    else FirstSome(xs, i + 1)
  }

  /** The anchored attempt at every position, the end of the text included. */
  function Attempts(s: string): (xs: seq<Option<HrbMatch>>)
    ensures |xs| == |s| + 1
    ensures forall k :: 0 <= k <= |s| ==> xs[k] == MatchAt(s, k)
  {
    seq(|s| + 1, k requires 0 <= k <= |s| => MatchAt(s, k))
  }

  /** `re.search(r"(HRB)\s+(\d+)\s+([A-Z]+)", s)`: absent exactly when no
      slice of `s` matches; otherwise the leftmost match, and at that position
      the longest one. */
  function SearchHrb(s: string): (r: Option<HrbMatch>)
    ensures r.None? <==> forall i :: 0 <= i <= |s| ==> !MatchStartsAt(s, i)
    ensures r.Some? ==> MatchesAt(s, r.value.start, r.value.end, r.value.number, r.value.addition)
    ensures r.Some? ==> forall i :: 0 <= i < r.value.start ==> !MatchStartsAt(s, i)
    ensures r.Some? ==> forall j, number, addition ::
              MatchesAt(s, r.value.start, j, number, addition) ==> j <= r.value.end && number == r.value.number
  {
    var attempts := Attempts(s);
    match FirstSome(attempts, 0)
    case None =>
      NoMatchBelow(s, 0, |s| + 1);
      None
    case Some(k) =>
      var m := attempts[k].value;
      MatchAtSound(s, k);
      NoMatchBelow(s, 0, k);
      assert MatchStartsAt(s, k);
      assert forall j, number, addition :: MatchesAt(s, k, j, number, addition) ==>
          j <= m.end && number == m.number by {
        forall j, number, addition | MatchesAt(s, k, j, number, addition) {
          MatchAtComplete(s, k, j, number, addition);
        }
      }
      Some(m)
  }

  // ---------------------------------------------------------------------
  // Examples

  /** `s[x..y]` is a longest run of `cls`: the run found by `Span`. */
  lemma LongestRun(s: string, x: nat, y: nat, cls: CharClass)
    requires x <= y <= |s|
    requires forall k :: x <= k < y ==> InClass(s[k], cls)
    requires y == |s| || !InClass(s[y], cls)
    ensures Span(s, x, cls) == y - x
  {
    var w := s[x..y];
    assert forall k :: 0 <= k < |w| ==> w[k] == s[x + k];
    RunSpan(s, x, w, cls);
  }

  /** The anchored attempt at `i` succeeds with the given group boundaries
      when the text between them has the right characters. */
  lemma AttemptFinds(s: string, i: nat, b: nat, c: nat, e: nat, end: nat)
    requires i + 3 < b < c < e < end <= |s|
    requires s[i..i + 3] == Prefix
    requires forall k :: i + 3 <= k < b ==> InClass(s[k], Space)
    requires forall k :: b <= k < c ==> InClass(s[k], Digit)
    requires forall k :: c <= k < e ==> InClass(s[k], Space)
    requires forall k :: e <= k < end ==> InClass(s[k], Upper)
    requires !InClass(s[b], Space) && !InClass(s[c], Digit) && !InClass(s[e], Space)
    requires end == |s| || !InClass(s[end], Upper)
    ensures MatchAt(s, i) == Some(HrbMatch(i, end, s[b..c], s[e..end]))
  {
    assert PrefixAt(s, i);
    LongestRun(s, i + 3, b, Space);
    assert NumberStart(s, i) == b;
    LongestRun(s, b, c, Digit);
    assert NumberEnd(s, i) == c;
    LongestRun(s, c, e, Space);
    assert AdditionStart(s, i) == e;
    LongestRun(s, e, end, Upper);
    assert AdditionEnd(s, i) == end;
  }

  /** No "HRB" starts at or after `lo`. */
  lemma NoPrefixFrom(s: string, lo: nat)
    requires lo <= |s| + 1
    requires forall k :: lo <= k < |s| ==> s[k] != 'H'
    ensures forall k :: lo <= k <= |s| ==> MatchAt(s, k).None?
  {
    forall k | lo <= k <= |s|
      ensures MatchAt(s, k).None?
    {
      if k + 3 <= |s| {
        assert s[k..k + 3][0] == s[k];
      }
    }
  }

  lemma ExampleFullMatch(s: string)
    requires s == "HRB 12345 B"
    ensures SearchHrb(s) == Some(HrbMatch(0, 11, "12345", "B"))
  {
    assert s[0..3] == Prefix;
    AttemptFinds(s, 0, 4, 9, 10, 11);
    assert s[4..9] == "12345" && s[10..11] == "B";
    assert FirstSome(Attempts(s), 0) == Some(0);
  }

  lemma ExampleOtherRegisterType(s: string)
    requires s == "HRA 1 X"
    ensures SearchHrb(s) == None
  {
    assert forall k :: 0 <= k < |s| ==> s[k] != 'B';
    forall i | 0 <= i <= |s|
      ensures MatchAt(s, i).None?
    {
      if i + 3 <= |s| {
        assert s[i..i + 3][2] == s[i + 2];
      }
    }
    NoMatchBelow(s, 0, |s| + 1);
  }

  lemma ExampleNoSuffix(s: string)
    requires s == "HRB 12345"
    ensures SearchHrb(s) == None
  {
    assert PrefixAt(s, 0);
    LongestRun(s, 3, 4, Space);
    LongestRun(s, 4, 9, Digit);
    LongestRun(s, 9, 9, Space);
    assert MatchAt(s, 0).None?;
    NoPrefixFrom(s, 1);
    NoMatchBelow(s, 0, |s| + 1);
  }
}

=== FILE: keys.dfy ===
/** Element names of the XJustiz register message `tns:nachricht.reg.0400003`
    as they appear as keys in the parsed tree. */
module Keys {
  const Root: string := "tns:nachricht.reg.0400003"

  // Message header
  const Kopf: string := "tns:nachrichtenkopf"
  const AuswahlAbsender: string := "tns:auswahl_absender"
  const AbsenderGericht: string := "tns:absender.gericht"
  const AktenzeichenAbsender: string := "tns:aktenzeichen.absender"

  // Register data
  const FachdatenRegister: string := "tns:fachdatenRegister"
  const BasisdatenRegister: string := "tns:basisdatenRegister"
  const Satzungsdatum: string := "tns:satzungsdatum"
  const AktuellesSatzungsdatum: string := "tns:aktuellesSatzungsdatum"
  const Rechtstraeger: string := "tns:rechtstraeger"
  const Gegenstand: string := "tns:gegenstand"
  const Auszug: string := "tns:auszug"
  const Eintragungstext: string := "tns:eintragungstext"

  // Names, legal forms, seats and addresses
  const Bezeichnung: string := "tns:bezeichnung"
  const BezeichnungAktuell: string := "tns:bezeichnung.aktuell"
  const AngabenZurRechtsform: string := "tns:angabenZurRechtsform"
  const Rechtsform: string := "tns:rechtsform"
  const Sitz: string := "tns:sitz"
  const Ort: string := "tns:ort"
  const Anschrift: string := "tns:anschrift"
  const Anschriftstyp: string := "tns:anschriftstyp"
  const Strasse: string := "tns:strasse"
  const Hausnummer: string := "tns:hausnummer"
  const Postleitzahl: string := "tns:postleitzahl"
  const Staat: string := "tns:staat"
  const AuswahlStaat: string := "tns:auswahl_staat"
  const Code: string := "code"

  // Proceedings and the court reference
  const Grunddaten: string := "tns:grunddaten"
  const Verfahrensdaten: string := "tns:verfahrensdaten"
  const Instanzdaten: string := "tns:instanzdaten"
  const Aktenzeichen: string := "tns:aktenzeichen"
  const AuswahlAktenzeichen: string := "tns:auswahl_aktenzeichen"
  const Strukturiert: string := "tns:aktenzeichen.strukturiert"
  const Freitext: string := "tns:aktenzeichen.freitext"
  const Register: string := "tns:register"
  const LaufendeNummer: string := "tns:laufendeNummer"
  const Zusatz: string := "tns:zusatz"

  // Participants
  const Beteiligung: string := "tns:beteiligung"
  const Rolle: string := "tns:rolle"
  const Rollennummer: string := "tns:rollennummer"
  const Rollenbezeichnung: string := "tns:rollenbezeichnung"
  const Beteiligter: string := "tns:beteiligter"
  const AuswahlBeteiligter: string := "tns:auswahl_beteiligter"
  const NatuerlichePerson: string := "tns:natuerlichePerson"
  const Organisation: string := "tns:organisation"
  const VollerName: string := "tns:vollerName"
  const Vorname: string := "tns:vorname"
  const Nachname: string := "tns:nachname"
  const Geburt: string := "tns:geburt"
  const Geburtsdatum: string := "tns:geburtsdatum"
  const Geschlecht: string := "tns:geschlecht"

  // Register entries
  const Spalte: string := "tns:spalte"
  const Position: string := "tns:position"
  const Eintragungsart: string := "tns:eintragungsart"
  const Text: string := "tns:text"
}

=== FILE: latest_file.dfy ===
/** Choosing the authoritative document of a company: every candidate path
    (the `.xml` files, then the `.xhtml` files) is keyed by the first
    `\d{4}-\d{2}-\d{2}T\d{2}-\d{2}-\d{2}` token in it, the list is sorted by
    that key in reverse with Python's stable sort, and the head is taken.

    `\d` is read as the ASCII digits `0-9`; Python's `re` on `str` also
    accepts the other Unicode decimal digits, which this module does not
    model.
 */
module LatestFile {
  import opened Wrappers
  import opened LexOrder

  const TokenLength: nat := 19

  /** `t` is a whole match of `\d{4}-\d{2}-\d{2}T\d{2}-\d{2}-\d{2}`. */
  predicate IsToken(t: string) {
    && |t| == TokenLength
    && AllDigits(t[0..4]) && t[4] == '-'
    && AllDigits(t[5..7]) && t[7] == '-'
    && AllDigits(t[8..10]) && t[10] == 'T'
    && AllDigits(t[11..13]) && t[13] == '-'
    && AllDigits(t[14..16]) && t[16] == '-'
    && AllDigits(t[17..19])
  }

  predicate TokenAt(s: string, i: nat) {
    i + TokenLength <= |s| && IsToken(s[i..i + TokenLength])
  }

  ghost predicate FirstTokenAt(s: string, i: nat) {
    TokenAt(s, i) && forall j :: 0 <= j < i ==> !TokenAt(s, j)
  }

  function FirstTokenFrom(s: string, i: nat): (r: Option<nat>)
    requires i <= |s|
    ensures r.None? ==> forall j :: i <= j <= |s| ==> !TokenAt(s, j)
    ensures r.Some? ==> i <= r.value && TokenAt(s, r.value)
    ensures r.Some? ==> forall j :: i <= j < r.value ==> !TokenAt(s, j)
    decreases |s| - i
  {
    if TokenAt(s, i) then Some(i)
    else if i == |s| then None
    else FirstTokenFrom(s, i + 1)
  }

  /** `re.search(token_pattern, s)` followed by `.group(0)`: the leftmost
      token, or nothing (where Python would call `.group` on None). */
  function TimestampToken(s: string): (r: Option<string>)
    ensures r.None? <==> forall j :: 0 <= j <= |s| ==> !TokenAt(s, j)
    ensures r.Some? ==> IsToken(r.value)
    ensures r.Some? ==> exists i: nat :: FirstTokenAt(s, i) && r.value == s[i..i + TokenLength]
  {
    match FirstTokenFrom(s, 0)
    case None => None
    case Some(i) =>
      assert FirstTokenAt(s, i);
      Some(s[i..i + TokenLength])
  }

  // ---------------------------------------------------------------------
  // The order of tokens is the order of the instants they name

  /** Bounds of the year, month, day, hour, minute and second fields. */
  function Start(f: nat): nat
    requires f < 6
  {
    if f == 0 then 0 else 3 * f + 2
  }

  function End(f: nat): nat
    requires f < 6
  {
    if f == 0 then 4 else 3 * f + 4
  }

  lemma TokenField(t: string, f: nat)
    requires IsToken(t) && f < 6
    ensures Start(f) < End(f) <= TokenLength
    ensures AllDigits(t[Start(f)..End(f)])
    ensures f < 5 ==> End(f) + 1 == Start(f + 1)
  {
  }

  /** (year, month, day, hour, minute, second) */
  function TimeOf(t: string): (r: seq<nat>)
    requires IsToken(t)
    ensures |r| == 6
  {
    [DigitVal(t[0..4]), DigitVal(t[5..7]), DigitVal(t[8..10]),
     DigitVal(t[11..13]), DigitVal(t[14..16]), DigitVal(t[17..19])]
  }

  lemma TimeOfField(t: string, f: nat)
    requires IsToken(t) && f < 6
    ensures AllDigits(t[Start(f)..End(f)])
    ensures TimeOf(t)[f] == DigitVal(t[Start(f)..End(f)])
  {
    TokenField(t, f);
  }

  /** Chronological order: the first field that differs decides. */
  predicate Before(x: seq<nat>, y: seq<nat>)
    requires |x| == |y|
    decreases |x|
  {
    |x| > 0 && (x[0] < y[0] || (x[0] == y[0] && Before(x[1..], y[1..])))
  }

  lemma {:induction false} BeforeIrreflexive(x: seq<nat>)
    ensures !Before(x, x)
    decreases |x|
  {
    if |x| > 0 {
      BeforeIrreflexive(x[1..]);
    }
  }

  lemma SuffixSlices(t: string, s: nat, e: nat)
    requires s <= e <= |t|
    ensures t[s..][..e - s] == t[s..e] && t[s..][e - s..] == t[e..]
  {
  }

  /** The separator after a field is the same in both tokens, so it does
      not decide the order. */
  lemma SeparatorStep(t1: string, t2: string, f: nat)
    requires IsToken(t1) && IsToken(t2) && f < 5
    ensures LexLess(t1[End(f)..], t2[End(f)..]) <==> LexLess(t1[Start(f + 1)..], t2[Start(f + 1)..])
  {
    TokenField(t1, f);
    TokenField(t2, f);
    var c, d := t1[End(f)..], t2[End(f)..];
    assert c[0] == d[0];
    LexSplit(c, d, 1);
    assert c[..1] == d[..1];
    LexIrreflexive(c[..1]);
    assert c[1..] == t1[Start(f + 1)..] && d[1..] == t2[Start(f + 1)..];
  }

  lemma {:induction false} TokenOrderFrom(t1: string, t2: string, f: nat)
    requires IsToken(t1) && IsToken(t2) && f < 6
    ensures LexLess(t1[Start(f)..], t2[Start(f)..]) <==> Before(TimeOf(t1)[f..], TimeOf(t2)[f..])
    decreases 6 - f
  {
    var s, e := Start(f), End(f);
    var w := e - s;
    var a, b := t1[s..], t2[s..];
    TokenField(t1, f);
    TokenField(t2, f);
    TimeOfField(t1, f);
    TimeOfField(t2, f);
    SuffixSlices(t1, s, e);
    SuffixSlices(t2, s, e);
    LexSplit(a, b, w);
    LexDigits(t1[s..e], t2[s..e]);
    var x, y := TimeOf(t1), TimeOf(t2);
    assert x[f..][0] == x[f] && y[f..][0] == y[f];
    assert x[f..][1..] == x[f + 1..] && y[f..][1..] == y[f + 1..];
    if f == 5 {
      assert t1[e..] == [] && t2[e..] == [];
      assert x[f + 1..] == [] && y[f + 1..] == [];
    } else {
      SeparatorStep(t1, t2, f);
      TokenOrderFrom(t1, t2, f + 1);
    }
  }

  /** For these zero-padded tokens Python's string order is chronological
      order, and two tokens name the same instant only when they are equal. */
  lemma TokenOrderIsChronological(t1: string, t2: string)
    requires IsToken(t1) && IsToken(t2)
    ensures LexLess(t1, t2) <==> Before(TimeOf(t1), TimeOf(t2))
    ensures t1 == t2 <==> TimeOf(t1) == TimeOf(t2)
  {
    TokenOrderFrom(t1, t2, 0);
    TokenOrderFrom(t2, t1, 0);
    assert t1[0..] == t1 && t2[0..] == t2;
    assert TimeOf(t1)[0..] == TimeOf(t1) && TimeOf(t2)[0..] == TimeOf(t2);
    if TimeOf(t1) == TimeOf(t2) {
      BeforeIrreflexive(TimeOf(t1));
      LexTotal(t1, t2);
    }
  }

  // ---------------------------------------------------------------------
  // Selection

  /** The sort key of every candidate, all computed before any comparison as
      `list.sort(key=...)` does; a path without a token raises. */
  function SortKeys(paths: seq<string>): (r: Result<seq<string>>)
    ensures r.Ok? <==> forall i :: 0 <= i < |paths| ==> TimestampToken(paths[i]).Some?
    ensures r.Ok? ==> |r.value| == |paths|
    ensures r.Ok? ==> forall i :: 0 <= i < |paths| ==> TimestampToken(paths[i]) == Some(r.value[i])
  {
    if |paths| == 0 then Ok([])
    else
      match TimestampToken(paths[0])
      case None => Crash
      case Some(key) =>
        var rest :- SortKeys(paths[1..]);
        Ok([key] + rest)
  }

  /** One step of the scan behind `LatestIndex`. */
  lemma LatestStep(keys: seq<string>, k: nat)
    requires 0 < |keys| && k < |keys| - 1
    requires forall j :: 0 <= j < |keys| - 1 ==> !LexLess(keys[k], keys[j])
    requires forall j :: 0 <= j < k ==> LexLess(keys[j], keys[k])
    ensures LexLess(keys[k], keys[|keys| - 1]) ==>
              (forall j :: 0 <= j < |keys| ==> !LexLess(keys[|keys| - 1], keys[j]))
              && (forall j :: 0 <= j < |keys| - 1 ==> LexLess(keys[j], keys[|keys| - 1]))
  {
    var last := keys[|keys| - 1];
    if LexLess(keys[k], last) {
      forall j | 0 <= j < |keys| - 1
        ensures LexLess(keys[j], last) && !LexLess(last, keys[j])
      {
        LexTotal(keys[j], keys[k]);
        if keys[j] != keys[k] {
          LexTransitive(keys[j], keys[k], last);
        }
        LexAsymmetric(keys[j], last);
      }
      LexIrreflexive(last);
    }
  }

  /** Position of the head of the reverse-sorted list: a greatest key, and
      the first one among equal greatest keys because the sort is stable. */
  function LatestIndex(keys: seq<string>): (k: nat)
    requires |keys| > 0
    ensures k < |keys|
    ensures forall j :: 0 <= j < |keys| ==> !LexLess(keys[k], keys[j])
    ensures forall j :: 0 <= j < k ==> LexLess(keys[j], keys[k])
  {
    if |keys| == 1 then
      LexIrreflexive(keys[0]);
      0
    else
      var prefix := keys[..|keys| - 1];
      var k := LatestIndex(prefix);
      LatestStep(keys, k);
      if LexLess(keys[k], keys[|keys| - 1]) then |keys| - 1 else k
  }

  /** The instant named by a candidate's token. */
  function Stamp(path: string): seq<nat>
    requires TimestampToken(path).Some?
  {
    TimeOf(TimestampToken(path).value)
  }

  /** `paths[k]` is the latest candidate: no candidate is later, and every
      earlier candidate is strictly older. */
  ghost predicate IsLatestCandidate(paths: seq<string>, k: nat)
    requires forall i :: 0 <= i < |paths| ==> TimestampToken(paths[i]).Some?
  {
    && k < |paths|
    && (forall j :: 0 <= j < |paths| ==> !Before(Stamp(paths[k]), Stamp(paths[j])))
    && (forall j :: 0 <= j < k ==> Before(Stamp(paths[j]), Stamp(paths[k])))
  }

  /** The latest-file decision of the batch loop: no candidates means the
      company is skipped, any candidate without a token raises, and otherwise
      the chronologically latest candidate wins, the earliest of them in
      xml-then-xhtml order on a tie. */
  function SelectLatest(xmlFiles: seq<string>, xhtmlFiles: seq<string>): (r: Result<Option<string>>)
    ensures |xmlFiles + xhtmlFiles| == 0 ==> r == Ok(None)
    ensures |xmlFiles + xhtmlFiles| > 0 ==>
              (r.Ok? <==> forall i :: 0 <= i < |xmlFiles + xhtmlFiles| ==> TimestampToken((xmlFiles + xhtmlFiles)[i]).Some?)
    ensures r.Ok? && |xmlFiles + xhtmlFiles| > 0 ==>
              r.value.Some? && exists k: nat :: IsLatestCandidate(xmlFiles + xhtmlFiles, k) && r.value.value == (xmlFiles + xhtmlFiles)[k]
  {
    var paths := xmlFiles + xhtmlFiles;
    if |paths| == 0 then Ok(None)
    else
      var keys :- SortKeys(paths);
      var k := LatestIndex(keys);
      LatestIsChronological(paths, keys, k);
      Ok(Some(paths[k]))
  }

  lemma LatestIsChronological(paths: seq<string>, keys: seq<string>, k: nat)
    requires |keys| == |paths| && k < |paths|
    requires forall i :: 0 <= i < |paths| ==> TimestampToken(paths[i]) == Some(keys[i])
    requires forall j :: 0 <= j < |keys| ==> !LexLess(keys[k], keys[j])
    requires forall j :: 0 <= j < k ==> LexLess(keys[j], keys[k])
    ensures IsLatestCandidate(paths, k)
  {
    forall j | 0 <= j < |paths|
      ensures !Before(Stamp(paths[k]), Stamp(paths[j]))
      ensures j < k ==> Before(Stamp(paths[j]), Stamp(paths[k]))
    {
      TokenOrderIsChronological(keys[k], keys[j]);
      TokenOrderIsChronological(keys[j], keys[k]);
    }
  }

  // ---------------------------------------------------------------------
  // Example

  lemma TokenAtStart(p: string)
    requires TokenAt(p, 0)
    ensures TimestampToken(p) == Some(p[0..TokenLength])
  {
    assert FirstTokenFrom(p, 0) == Some(0);
  }

  lemma SortKeysSingle(p: string)
    requires TimestampToken(p).Some?
    ensures SortKeys([p]) == Ok([TimestampToken(p).value])
  {
    var k := TimestampToken(p).value;
    assert [p][1..] == [];
    assert [k] + [] == [k];
  }

  lemma SelectByKeys(xmlFiles: seq<string>, xhtmlFiles: seq<string>, keys: seq<string>)
    requires |xmlFiles + xhtmlFiles| > 0 && SortKeys(xmlFiles + xhtmlFiles) == Ok(keys)
    ensures |keys| > 0
    ensures SelectLatest(xmlFiles, xhtmlFiles) == Ok(Some((xmlFiles + xhtmlFiles)[LatestIndex(keys)]))
  {
  }

  /** Two stamped candidates: the one with the later stamp is chosen. */
  lemma {:induction false} LaterOfTwo(p1: string, p2: string)
    requires TokenAt(p1, 0) && TokenAt(p2, 0)
    requires LexLess(p1[0..TokenLength], p2[0..TokenLength])
    ensures SelectLatest([p1, p2], []) == Ok(Some(p2))
  {
    var t1, t2 := p1[0..TokenLength], p2[0..TokenLength];
    TokenAtStart(p1);
    TokenAtStart(p2);
    SortKeysSingle(p2);
    assert [p1, p2][1..] == [p2];
    assert [t1] + [t2] == [t1, t2];
    assert SortKeys([p1, p2]) == Ok([t1, t2]);
    assert [t1, t2][..1] == [t1];
    assert LatestIndex([t1, t2]) == 1;
    assert [p1, p2] + [] == [p1, p2];
    SelectByKeys([p1, p2], [], [t1, t2]);
  }

  /** A string of the token's shape, checked character by character. */
  lemma TokenByChars(t: string)
    requires |t| == TokenLength
    requires t[4] == '-' && t[7] == '-' && t[10] == 'T' && t[13] == '-' && t[16] == '-'
    requires forall k :: 0 <= k < TokenLength && k != 4 && k != 7 && k != 10 && k != 13 && k != 16 ==> IsDigit(t[k])
    ensures IsToken(t)
  {
    forall f | 0 <= f < 6
      ensures AllDigits(t[Start(f)..End(f)])
    {
      assert forall k :: 0 <= k < End(f) - Start(f) ==> t[Start(f)..End(f)][k] == t[Start(f) + k];
    }
    assert t[0..4] == t[Start(0)..End(0)];
  }

  lemma ExampleStamps(t1: string, t2: string)
    requires t1 == "2024-01-01T00-00-00" && t2 == "2024-03-11T13-59-19"
    ensures IsToken(t1) && IsToken(t2) && LexLess(t1, t2)
  {
    TokenByChars(t1);
    TokenByChars(t2);
    assert t1[..5] == t2[..5];
    LexSplit(t1, t2, 5);
    LexSplit(t1[5..], t2[5..], 2);
  }

  /** Of two exports, the later stamp wins. */
  lemma ExampleLaterWins(p1: string, p2: string)
    requires p1 == "2024-01-01T00-00-00.xml" && p2 == "2024-03-11T13-59-19.xml"
    ensures SelectLatest([p1, p2], []) == Ok(Some(p2))
  {
    ExampleStamps(p1[0..19], p2[0..19]);
    LaterOfTwo(p1, p2);
  }
}

=== FILE: lex_order.dfy ===
/** Python's ordering of strings, and how it relates to the numeric order of
    zero-padded decimal fields. */
module LexOrder {

  /** `a < b` on Python strings: code point by code point, and a proper prefix
      sorts first. */
  predicate LexLess(a: string, b: string)
    decreases |a|
  {
    if |a| == 0 then |b| > 0
    else if |b| == 0 then false
    else if a[0] != b[0] then a[0] < b[0]
    else LexLess(a[1..], b[1..])
  }

  lemma {:induction false} LexIrreflexive(a: string)
    ensures !LexLess(a, a)
    decreases |a|
  {
    if |a| > 0 {
      LexIrreflexive(a[1..]);
    }
  }

  /** A proper prefix sorts before the longer string. */
  lemma {:induction false} LexPrefix(a: string, b: string)
    requires |a| < |b| && a == b[..|a|]
    ensures LexLess(a, b)
    decreases |a|
  {
    if |a| > 0 {
      assert a[0] == b[0];
      assert a[1..] == b[1..][..|a| - 1];
      LexPrefix(a[1..], b[1..]);
    }
  }

  lemma {:induction false} LexTransitive(a: string, b: string, c: string)
    requires LexLess(a, b) && LexLess(b, c)
    ensures LexLess(a, c)
    decreases |a|
  {
    if |a| > 0 && a[0] == b[0] && b[0] == c[0] {
      LexTransitive(a[1..], b[1..], c[1..]);
    }
  }

  lemma {:induction false} LexTotal(a: string, b: string)
    ensures a == b || LexLess(a, b) || LexLess(b, a)
    decreases |a|
  {
    if |a| > 0 && |b| > 0 && a[0] == b[0] {
      LexTotal(a[1..], b[1..]);
      if a[1..] == b[1..] {
        assert a == [a[0]] + a[1..] && b == [b[0]] + b[1..];
      }
    }
  }

  lemma LexAsymmetric(a: string, b: string)
    requires LexLess(a, b)
    ensures !LexLess(b, a)
  {
    if LexLess(b, a) {
      LexTransitive(a, b, a);
      LexIrreflexive(a);
    }
  }

  /** Comparing two strings of equal length splits at any position into
      comparing the prefixes, and the suffixes when the prefixes agree. */
  lemma {:induction false} LexSplit(a: string, b: string, q: nat)
    requires |a| == |b| && q <= |a|
    ensures LexLess(a, b) <==> LexLess(a[..q], b[..q]) || (a[..q] == b[..q] && LexLess(a[q..], b[q..]))
    decreases q
  {
    if q == 0 {
      assert a[..0] == b[..0];
      assert a[0..] == a && b[0..] == b;
    } else if a[0] != b[0] {
      assert a[..q][0] == a[0] && b[..q][0] == b[0];
    } else {
      LexSplit(a[1..], b[1..], q - 1);
      assert a[1..][..q - 1] == a[..q][1..];
      assert b[1..][..q - 1] == b[..q][1..];
      assert a[1..][q - 1..] == a[q..];
      assert b[1..][q - 1..] == b[q..];
      assert a[..q][0] == a[0] && b[..q][0] == b[0];
      if a[1..][..q - 1] == b[1..][..q - 1] {
        assert a[..q] == [a[0]] + a[1..][..q - 1];
        assert b[..q] == [b[0]] + b[1..][..q - 1];
      }
    }
  }

  // ---------------------------------------------------------------------
  // Zero-padded decimal fields

  predicate IsDigit(c: char) {
    '0' <= c <= '9'
  }

  predicate AllDigits(a: string) {
    forall k :: 0 <= k < |a| ==> IsDigit(a[k])
  }

  function Pow10(n: nat): (p: nat)
    ensures p > 0
  {
    if n == 0 then 1 else 10 * Pow10(n - 1)
  }

  /** The number a string of decimal digits denotes. */
  function DigitVal(a: string): nat
    requires AllDigits(a)
    decreases |a|
  {
    if |a| == 0 then 0
    else ((a[0] as int) - ('0' as int)) * Pow10(|a| - 1) + DigitVal(a[1..])
  }

  lemma {:induction false} DigitValBound(a: string)
    requires AllDigits(a)
    ensures DigitVal(a) < Pow10(|a|)
    decreases |a|
  {
    if |a| > 0 {
      DigitValBound(a[1..]);
      DigitStep((a[0] as int) - ('0' as int), Pow10(|a| - 1), DigitVal(a[1..]));
    }
  }

  /** A leading digit followed by a smaller tail stays below the next power. */
  lemma DigitStep(d: int, p: int, r: int)
    requires 0 <= d <= 9 && 0 <= r < p
    ensures d * p + r < 10 * p
  {
    MulNonNegative(9 - d, p);
    assert 10 * p == d * p + (9 - d) * p + p;
  }

  lemma MulNonNegative(a: int, b: int)
    requires a >= 0 && b >= 0
    ensures a * b >= 0
  {
  }

  /** A smaller leading digit decides, whatever follows it. */
  lemma LeadingDigit(da: int, db: int, ra: int, rb: int, p: int)
    requires da < db && 0 <= ra < p && 0 <= rb
    ensures da * p + ra < db * p + rb
  {
    var k := db - da;
    MulAtLeast(k, p);
    assert db * p == da * p + k * p;
  }

  lemma {:induction false} MulAtLeast(k: int, p: int)
    requires k >= 1 && p >= 0
    ensures k * p >= p
    decreases k
  {
    if k > 1 {
      MulAtLeast(k - 1, p);
      assert k * p == (k - 1) * p + p;
    }
  }

  /** On digit strings of one length, string order is numeric order: this is
      what zero padding buys. */
  lemma {:induction false} LexDigits(a: string, b: string)
    requires |a| == |b| && AllDigits(a) && AllDigits(b)
    ensures LexLess(a, b) <==> DigitVal(a) < DigitVal(b)
    ensures a == b <==> DigitVal(a) == DigitVal(b)
    decreases |a|
  {
    if |a| > 0 {
      var da := (a[0] as int) - ('0' as int);
      var db := (b[0] as int) - ('0' as int);
      var p := Pow10(|a| - 1);
      DigitValBound(a[1..]);
      DigitValBound(b[1..]);
      assert DigitVal(a) == da * p + DigitVal(a[1..]);
      assert DigitVal(b) == db * p + DigitVal(b[1..]);
      if da < db {
        LeadingDigit(da, db, DigitVal(a[1..]), DigitVal(b[1..]), p);
      } else if db < da {
        LeadingDigit(db, da, DigitVal(b[1..]), DigitVal(a[1..]), p);
      } else {
        LexDigits(a[1..], b[1..]);
        if a[1..] == b[1..] {
          assert a == [a[0]] + a[1..] && b == [b[0]] + b[1..];
        }
      }
    }
  }
}

=== FILE: parties.dfy ===
/** `extract_parties`: the people and organisations listed under
    `tns:beteiligung`, in document order. */
module Parties {
  import opened Wrappers
  import opened Tree
  import opened Keys
  import opened Records
  import opened Positions

  /** The role of a participant: a repeated `tns:rolle` contributes its first
      element, and an empty repetition raises an IndexError. */
  function RoleOf(p: Node): (r: Result<Node>)
    ensures r.Ok? ==> p.Map?
    ensures p.Map? && Get(p, Rolle, Empty).value.List? ==>
              var roles := Get(p, Rolle, Empty).value.items;
              (r.Ok? <==> |roles| > 0) && (r.Ok? ==> r.value == roles[0])
    ensures p.Map? && !Get(p, Rolle, Empty).value.List? ==> r == Get(p, Rolle, Empty)
  {
    var roles :- Get(p, Rolle, Empty);
    if roles.List? then
      if |roles.items| > 0 then Ok(roles.items[0]) else Crash
    else
      Ok(roles)
  }

  /** The role name code node: `tns:rollenbezeichnung` is read only when it
      is not None, and a missing one counts as `{}`. */
  function RoleNameCode(role: Node): (r: Result<Node>)
    ensures r.Ok? <==> role.Map? && (Get(role, Rollenbezeichnung, Empty).value.Null? || Get(role, Rollenbezeichnung, Empty).value.Map?)
    ensures role.Map? && (Get(role, Rollenbezeichnung, Empty) == Ok(Null) || !HasKey(role, Rollenbezeichnung)) ==> r == Ok(Null)
    ensures role.Map? && Get(role, Rollenbezeichnung, Empty).value.Map? ==> r == Get(Get(role, Rollenbezeichnung, Empty).value, Code, Null)
  {
    var bezeichnung :- Get(role, Rollenbezeichnung, Empty);
    GetUnlessNone(bezeichnung, Code)
  }

  /** The selector that says whether the participant is a person or an
      organisation. */
  function Choice(p: Node): Result<Node> {
    Dig(p, [Beteiligter, AuswahlBeteiligter])
  }

  /** Where a person's state code sits below `tns:natuerlichePerson`. */
  const PersonStatePath: seq<string> := [Anschrift, Staat, AuswahlStaat, Staat]

  /** The record of a natural person. Birth date, gender and state tolerate a
      present-but-empty parent element and then stay None; the name and the
      address do not. */
  function ReadPerson(info: Node, roleNumber: Node, roleNameCode: Node, companyNumber: string, filePath: string): (r: Result<Participant>)
    ensures r.Ok? <==> && Leaf(info, [VollerName, Vorname]).Ok? && Leaf(info, [VollerName, Nachname]).Ok?
                       && GuardedLeaf(info, [Geburt], Geburtsdatum).Ok? && GuardedLeaf(info, [Geschlecht], Code).Ok?
                       && Leaf(info, [Anschrift, Ort]).Ok? && GuardedLeaf(info, PersonStatePath, Code).Ok?
                       && AsOptStr(roleNumber).Ok? && AsOptStr(roleNameCode).Ok?
    ensures r.Ok? ==> r.value.Person? && r.value.companyNumber == companyNumber && r.value.filePath == filePath
    ensures r.Ok? ==> Ok(r.value.roleNumber) == AsOptStr(roleNumber) && Ok(r.value.roleNameCode) == AsOptStr(roleNameCode)
    ensures r.Ok? ==> && Leaf(info, [VollerName, Vorname]) == Ok(r.value.firstName)
                      && Leaf(info, [VollerName, Nachname]) == Ok(r.value.lastName)
                      && Leaf(info, [Anschrift, Ort]) == Ok(r.value.city)
    ensures r.Ok? ==> info.Map?
    ensures r.Ok? && Get(info, Geburt, Empty) == Ok(Null) ==> r.value.birthDate == None
    ensures r.Ok? && Get(info, Geburt, Empty).value.Map? ==> Leaf(info, [Geburt, Geburtsdatum]) == Ok(r.value.birthDate)
    ensures r.Ok? && Get(info, Geschlecht, Empty) == Ok(Null) ==> r.value.genderCode == None
    ensures r.Ok? && Get(info, Geschlecht, Empty).value.Map? ==> Leaf(info, [Geschlecht, Code]) == Ok(r.value.genderCode)
    ensures r.Ok? && Dig(info, PersonStatePath) == Ok(Null) ==> r.value.stateCode == None
    ensures r.Ok? && Dig(info, PersonStatePath).value.Map? ==> Leaf(info, PersonStatePath + [Code]) == Ok(r.value.stateCode)
    ensures Get(info, Anschrift, Empty) == Ok(Null) ==> r == Crash
  {
    var first :- Leaf(info, [VollerName, Vorname]);
    var last :- Leaf(info, [VollerName, Nachname]);
    var birth :- GuardedLeaf(info, [Geburt], Geburtsdatum);
    var gender :- GuardedLeaf(info, [Geschlecht], Code);
    var city :- Leaf(info, [Anschrift, Ort]);
    LookupPair(info, Anschrift, Ort);
    var state :- GuardedLeaf(info, PersonStatePath, Code);
    var number :- AsOptStr(roleNumber);
    var nameCode :- AsOptStr(roleNameCode);
    assert Dig(info, [Geburt]) == Get(info, Geburt, Empty);
    assert Dig(info, [Geschlecht]) == Get(info, Geschlecht, Empty);
    assert [Geburt] + [Geburtsdatum] == [Geburt, Geburtsdatum];
    assert [Geschlecht] + [Code] == [Geschlecht, Code];
    Ok(Person(number, nameCode, first, last, birth, gender, city, state, companyNumber, filePath))
  }

  /** The record of an organisation: every step of every path needs a
      dictionary or a missing key. */
  function ReadOrganization(info: Node, roleNumber: Node, roleNameCode: Node, companyNumber: string, filePath: string): (r: Result<Participant>)
    ensures r.Ok? <==> && Leaf(info, [Bezeichnung, BezeichnungAktuell]).Ok? && Leaf(info, [AngabenZurRechtsform, Rechtsform, Code]).Ok?
                       && Leaf(info, [Sitz, Ort]).Ok? && Leaf(info, [Anschrift, Staat, AuswahlStaat, Staat, Code]).Ok?
                       && AsOptStr(roleNumber).Ok? && AsOptStr(roleNameCode).Ok?
    ensures r.Ok? ==> r.value.Organization? && r.value.companyNumber == companyNumber && r.value.filePath == filePath
    ensures r.Ok? ==> Ok(r.value.roleNumber) == AsOptStr(roleNumber) && Ok(r.value.roleNameCode) == AsOptStr(roleNameCode)
    ensures r.Ok? ==> && Leaf(info, [Bezeichnung, BezeichnungAktuell]) == Ok(r.value.name)
                      && Leaf(info, [AngabenZurRechtsform, Rechtsform, Code]) == Ok(r.value.legalFormCode)
                      && Leaf(info, [Sitz, Ort]) == Ok(r.value.city)
                      && Leaf(info, [Anschrift, Staat, AuswahlStaat, Staat, Code]) == Ok(r.value.stateCode)
  {
    var name :- Leaf(info, [Bezeichnung, BezeichnungAktuell]);
    var legalForm :- Leaf(info, [AngabenZurRechtsform, Rechtsform, Code]);
    var city :- Leaf(info, [Sitz, Ort]);
    var state :- Leaf(info, [Anschrift, Staat, AuswahlStaat, Staat, Code]);
    var number :- AsOptStr(roleNumber);
    var nameCode :- AsOptStr(roleNameCode);
    Ok(Organization(number, nameCode, name, legalForm, city, state, companyNumber, filePath))
  }

  /** One pass of the loop body: a person when the selector holds a natural
      person (tested first), else an organisation when it holds one, else
      nothing. */
  function ExtractParticipant(p: Node, companyNumber: string, filePath: string): (r: Result<Option<Participant>>)
    ensures RoleOf(p).Crash? ==> r == Crash
    ensures r.Ok? <==>
              && RoleOf(p).Ok? && Get(RoleOf(p).value, Rollennummer, Null).Ok? && RoleNameCode(RoleOf(p).value).Ok?
              && Choice(p).Ok? && !Choice(p).value.Null?
              && (Contains(Choice(p).value, NatuerlichePerson) == Ok(true) ==>
                    && Get(Choice(p).value, NatuerlichePerson, Empty).Ok?
                    && ReadPerson(Get(Choice(p).value, NatuerlichePerson, Empty).value, Get(RoleOf(p).value, Rollennummer, Null).value,
                                  RoleNameCode(RoleOf(p).value).value, companyNumber, filePath).Ok?)
              && (Contains(Choice(p).value, NatuerlichePerson) == Ok(false) && Contains(Choice(p).value, Organisation) == Ok(true) ==>
                    && Get(Choice(p).value, Organisation, Empty).Ok?
                    && ReadOrganization(Get(Choice(p).value, Organisation, Empty).value, Get(RoleOf(p).value, Rollennummer, Null).value,
                                        RoleNameCode(RoleOf(p).value).value, companyNumber, filePath).Ok?)
    ensures r.Ok? ==> Choice(p).Ok? && !Choice(p).value.Null?
    ensures r.Ok? ==>
              && (r.value.Some? && r.value.value.Person? <==> Contains(Choice(p).value, NatuerlichePerson) == Ok(true))
              && (r.value.Some? && r.value.value.Organization? <==>
                    Contains(Choice(p).value, NatuerlichePerson) == Ok(false) && Contains(Choice(p).value, Organisation) == Ok(true))
              && (r.value.None? <==>
                    Contains(Choice(p).value, NatuerlichePerson) == Ok(false) && Contains(Choice(p).value, Organisation) == Ok(false))
    ensures r.Ok? && r.value.Some? ==> r.value.value.companyNumber == companyNumber && r.value.value.filePath == filePath
    ensures r.Ok? && r.value.Some? ==> RoleOf(p).Ok? && Leaf(RoleOf(p).value, [Rollennummer]) == Ok(r.value.value.roleNumber)
    ensures r.Ok? && r.value.Some? ==>
              RoleOf(p).Ok? && RoleNameCode(RoleOf(p).value).Ok?
              && AsOptStr(RoleNameCode(RoleOf(p).value).value) == Ok(r.value.value.roleNameCode)
    ensures r.Ok? && r.value.Some? && r.value.value.Person? ==>
              && RoleOf(p).Ok? && Get(RoleOf(p).value, Rollennummer, Null).Ok? && RoleNameCode(RoleOf(p).value).Ok?
              && Get(Choice(p).value, NatuerlichePerson, Empty).Ok?
              && ReadPerson(Get(Choice(p).value, NatuerlichePerson, Empty).value, Get(RoleOf(p).value, Rollennummer, Null).value,
                            RoleNameCode(RoleOf(p).value).value, companyNumber, filePath) == Ok(r.value.value)
    ensures r.Ok? && r.value.Some? && r.value.value.Organization? ==>
              && RoleOf(p).Ok? && Get(RoleOf(p).value, Rollennummer, Null).Ok? && RoleNameCode(RoleOf(p).value).Ok?
              && Get(Choice(p).value, Organisation, Empty).Ok?
              && ReadOrganization(Get(Choice(p).value, Organisation, Empty).value, Get(RoleOf(p).value, Rollennummer, Null).value,
                                  RoleNameCode(RoleOf(p).value).value, companyNumber, filePath) == Ok(r.value.value)
  {
    var role :- RoleOf(p);
    var roleNumber :- Get(role, Rollennummer, Null);
    var roleNameCode :- RoleNameCode(role);
    var choice :- Choice(p);
    var isPerson :- Contains(choice, NatuerlichePerson);
    LookupSingle(role, Rollennummer);
    if isPerson then
      var info :- Get(choice, NatuerlichePerson, Empty);
      var person :- ReadPerson(info, roleNumber, roleNameCode, companyNumber, filePath);
      Ok(Some(person))
    else if Contains(choice, Organisation).value then
      var info :- Get(choice, Organisation, Empty);
      var organization :- ReadOrganization(info, roleNumber, roleNameCode, companyNumber, filePath);
      Ok(Some(organization))
    else
      Ok(None)
  }

  /** Which participants produce a record; defined when none raises. */
  function Produces(items: seq<Node>, companyNumber: string, filePath: string): (flags: seq<bool>)
    requires forall i :: 0 <= i < |items| ==> ExtractParticipant(items[i], companyNumber, filePath).Ok?
    ensures |flags| == |items|
    ensures forall i :: 0 <= i < |items| ==> flags[i] == ExtractParticipant(items[i], companyNumber, filePath).value.Some?
  {
    seq(|items|, i requires 0 <= i < |items| => ExtractParticipant(items[i], companyNumber, filePath).value.Some?)
  }

  /** The loop over the participants: the records of the participants that
      produce one, in document order. */
  function CollectParticipants(items: seq<Node>, companyNumber: string, filePath: string): (r: Result<seq<Participant>>)
    ensures r.Ok? <==> forall i :: 0 <= i < |items| ==> ExtractParticipant(items[i], companyNumber, filePath).Ok?
    ensures r.Ok? ==> |r.value| <= |items|
    ensures r.Ok? ==> forall k :: 0 <= k < |r.value| ==>
              r.value[k].companyNumber == companyNumber && r.value[k].filePath == filePath
    ensures r.Ok? ==>
              var origin := Selected(Produces(items, companyNumber, filePath));
              && |r.value| == |origin|
              && forall k :: 0 <= k < |r.value| ==> ExtractParticipant(items[origin[k]], companyNumber, filePath) == Ok(Some(r.value[k]))
  {
    var outcomes :- Traverse(items, p => ExtractParticipant(p, companyNumber, filePath));
    OutcomesProduce(items, companyNumber, filePath, outcomes);
    Ok(Kept(outcomes))
  }

  /** The outcomes of the loop body flag exactly the producing participants,
      and every kept record is stamped. */
  lemma OutcomesProduce(items: seq<Node>, companyNumber: string, filePath: string, outcomes: seq<Option<Participant>>)
    requires |outcomes| == |items|
    requires forall i :: 0 <= i < |items| ==> ExtractParticipant(items[i], companyNumber, filePath) == Ok(outcomes[i])
    ensures Flags(outcomes) == Produces(items, companyNumber, filePath)
    ensures forall k :: 0 <= k < |Kept(outcomes)| ==>
              Kept(outcomes)[k].companyNumber == companyNumber && Kept(outcomes)[k].filePath == filePath
  {
    var kept := Kept(outcomes);
    forall k | 0 <= k < |kept|
      ensures kept[k].companyNumber == companyNumber && kept[k].filePath == filePath
    {
      var j := Selected(Flags(outcomes))[k];
      assert ExtractParticipant(items[j], companyNumber, filePath) == Ok(Some(kept[k]));
    }
  }

  const ProceedingsPath: seq<string> := [Root, Grunddaten, Verfahrensdaten]

  /** `tns:beteiligung`, or `[]` when it is missing. */
  function Participation(doc: Node): (r: Result<Node>)
    ensures r.Ok? ==> Dig(doc, ProceedingsPath).Ok? && Dig(doc, ProceedingsPath).value.Map?
    ensures (Dig(doc, ProceedingsPath).Ok? && Dig(doc, ProceedingsPath).value.Map?
             && !HasKey(Dig(doc, ProceedingsPath).value, Beteiligung)) ==> r == Ok(List([]))
  {
    var proceedings :- Dig(doc, ProceedingsPath);
    Get(proceedings, Beteiligung, List([]))
  }

  /** `extract_parties`: iterate whatever `tns:beteiligung` holds. A single
      participant is a dictionary, and iterating it yields its keys, on which
      `.get` raises. */
  function ExtractParties(doc: Node, companyNumber: string, filePath: string): (r: Result<seq<Participant>>)
    ensures r.Ok? ==> forall k :: 0 <= k < |r.value| ==>
              r.value[k].companyNumber == companyNumber && r.value[k].filePath == filePath
    ensures r.Ok? ==> Participation(doc).Ok? && Iter(Participation(doc).value).Ok?
                      && CollectParticipants(Iter(Participation(doc).value).value, companyNumber, filePath) == r
    ensures Participation(doc).Ok? && Iter(Participation(doc).value).Ok? ==>
              r == CollectParticipants(Iter(Participation(doc).value).value, companyNumber, filePath)
  {
    var participation :- Participation(doc);
    var items :- Iter(participation);
    CollectParticipants(items, companyNumber, filePath)
  }

  // ---------------------------------------------------------------------
  // Properties

  /** An empty `tns:rolle` list raises instead of counting as absent. */
  lemma EmptyRoleListCrashes(p: Node, companyNumber: string, filePath: string)
    requires p.Map? && Get(p, Rolle, Empty) == Ok(List([]))
    ensures ExtractParticipant(p, companyNumber, filePath) == Crash
  {
  }

  /** A present-but-empty `tns:rollenbezeichnung` gives a None role name
      code without an error, so it adds no failure to the participant. */
  lemma EmptyRoleNameGivesNone(p: Node, companyNumber: string, filePath: string)
    requires RoleOf(p).Ok? && RoleOf(p).value.Map? && Get(RoleOf(p).value, Rollenbezeichnung, Empty) == Ok(Null)
    ensures RoleNameCode(RoleOf(p).value) == Ok(Null)
    ensures ExtractParticipant(p, companyNumber, filePath).Ok? && ExtractParticipant(p, companyNumber, filePath).value.Some? ==>
              ExtractParticipant(p, companyNumber, filePath).value.value.roleNameCode == None
  {
  }

  /** A participant whose first role has number "1" and role name code
      "287" and whose selector holds an organisation given as `{}` is
      extracted as that organisation, every other field None. */
  lemma ExampleRegisteredEntity(p: Node, role: Node, selector: Node, companyNumber: string, filePath: string)
    requires role == Map([(Rollennummer, Str("1")), (Rollenbezeichnung, Single(Code, Str("287")))])
    requires selector == Single(Organisation, Empty)
    requires p == Map([(Rolle, role), (Beteiligter, Single(AuswahlBeteiligter, selector))])
    ensures ExtractParticipant(p, companyNumber, filePath)
            == Ok(Some(Organization(Some("1"), Some("287"), None, None, None, None, companyNumber, filePath)))
  {
    ExampleParticipantParts(p, role, selector);
    ExampleRoleFields(role);
    EmptyOrganization(Empty, Str("1"), Str("287"), companyNumber, filePath);
    OrganizationSelector(selector);
  }

  lemma OrganizationSelector(selector: Node)
    requires selector == Single(Organisation, Empty)
    ensures Contains(selector, NatuerlichePerson) == Ok(false) && Contains(selector, Organisation) == Ok(true)
    ensures Get(selector, Organisation, Empty) == Ok(Empty)
  {
    assert Organisation != NatuerlichePerson by { assert Organisation[4] != NatuerlichePerson[4]; }
  }

  lemma ExampleParticipantParts(p: Node, role: Node, selector: Node)
    requires p == Map([(Rolle, role), (Beteiligter, Single(AuswahlBeteiligter, selector))])
    requires role.Map?
    ensures RoleOf(p) == Ok(role) && Choice(p) == Ok(selector)
  {
    assert Rolle != Beteiligter by { assert Rolle[4] != Beteiligter[4]; }
    assert Rolle != Beteiligung && Beteiligter != Beteiligung by { assert |Rolle| != |Beteiligung| && Beteiligter[12] != Beteiligung[12]; }
    GetOfPair(Rolle, role, Beteiligter, Single(AuswahlBeteiligter, selector), Beteiligung);
    DigStep(Single(AuswahlBeteiligter, selector), AuswahlBeteiligter, selector, [], selector);
    DigStep(p, Beteiligter, Single(AuswahlBeteiligter, selector), [AuswahlBeteiligter], selector);
    assert [AuswahlBeteiligter] + [] == [AuswahlBeteiligter];
    assert [Beteiligter] + [AuswahlBeteiligter] == [Beteiligter, AuswahlBeteiligter];
  }

  lemma ExampleRoleFields(role: Node)
    requires role == Map([(Rollennummer, Str("1")), (Rollenbezeichnung, Single(Code, Str("287")))])
    ensures Get(role, Rollennummer, Null) == Ok(Str("1")) && RoleNameCode(role) == Ok(Str("287"))
  {
    assert Rollennummer != Rollenbezeichnung by { assert Rollennummer[10] != Rollenbezeichnung[10]; }
    assert Rolle != Rollennummer && Rolle != Rollenbezeichnung;
    GetOfPair(Rollennummer, Str("1"), Rollenbezeichnung, Single(Code, Str("287")), Rolle);
  }

  /** An organisation dictionary holding none of the keys the extractor
      reads (`{}`, or an element carrying only attributes): every field
      None. */
  lemma EmptyOrganization(info: Node, roleNumber: Node, roleNameCode: Node, companyNumber: string, filePath: string)
    requires info.Map? && !HasKey(info, Bezeichnung) && !HasKey(info, AngabenZurRechtsform)
    requires !HasKey(info, Sitz) && !HasKey(info, Anschrift)
    requires roleNumber.Str? && roleNameCode.Str?
    ensures ReadOrganization(info, roleNumber, roleNameCode, companyNumber, filePath)
            == Ok(Organization(Some(roleNumber.s), Some(roleNameCode.s), None, None, None, None, companyNumber, filePath))
  {
    MissingKeyYieldsNull(info, [Bezeichnung, BezeichnungAktuell], 0);
    MissingKeyYieldsNull(info, [AngabenZurRechtsform, Rechtsform, Code], 0);
    MissingKeyYieldsNull(info, [Sitz, Ort], 0);
    MissingKeyYieldsNull(info, [Anschrift, Staat, AuswahlStaat, Staat, Code], 0);
  }

  /** An empty organisation element is None after parsing; the first `.get`
      on it raises, so the participant raises too. */
  lemma NullOrganizationCrashes(p: Node, companyNumber: string, filePath: string)
    requires Choice(p).Ok? && Choice(p).value.Map? && !HasKey(Choice(p).value, NatuerlichePerson)
    requires Get(Choice(p).value, Organisation, Empty) == Ok(Null)
    ensures ExtractParticipant(p, companyNumber, filePath) == Crash
  {
    assert HasKey(Choice(p).value, Organisation);
    assert Leaf(Null, [Bezeichnung, BezeichnungAktuell]) == Crash;
  }

  /** A selector naming both a person and an organisation yields a person. */
  lemma PersonTestedFirst(p: Node, companyNumber: string, filePath: string)
    requires Choice(p).Ok? && HasKey(Choice(p).value, NatuerlichePerson) && HasKey(Choice(p).value, Organisation)
    ensures ExtractParticipant(p, companyNumber, filePath).Ok? ==>
              && ExtractParticipant(p, companyNumber, filePath).value.Some?
              && ExtractParticipant(p, companyNumber, filePath).value.value.Person?
  {
  }

  /** A selector naming neither is dropped without an error once the role
      has been read. */
  lemma NeitherKindDropped(p: Node, companyNumber: string, filePath: string)
    requires RoleOf(p).Ok? && Get(RoleOf(p).value, Rollennummer, Null).Ok? && RoleNameCode(RoleOf(p).value).Ok?
    requires Choice(p).Ok? && Choice(p).value.Map?
    requires !HasKey(Choice(p).value, NatuerlichePerson) && !HasKey(Choice(p).value, Organisation)
    ensures ExtractParticipant(p, companyNumber, filePath) == Ok(None)
  {
  }

  /** A missing `tns:beteiligung` yields no participants and no error. */
  lemma MissingParticipationGivesNone(doc: Node, companyNumber: string, filePath: string)
    requires Dig(doc, ProceedingsPath).Ok? && Dig(doc, ProceedingsPath).value.Map?
    requires !HasKey(Dig(doc, ProceedingsPath).value, Beteiligung)
    ensures ExtractParties(doc, companyNumber, filePath) == Ok([])
  {
    NoneSelected(Produces([], companyNumber, filePath));
  }

  /** A single participant is a dictionary; the loop then visits its keys,
      which are strings, and the first `.get` on one raises. */
  lemma SingleParticipantCrashes(doc: Node, companyNumber: string, filePath: string)
    requires Participation(doc).Ok? && Participation(doc).value.Map?
    requires |Participation(doc).value.kvs| > 0
    ensures ExtractParties(doc, companyNumber, filePath) == Crash
  {
    var items := Iter(Participation(doc).value).value;
    assert items[0].Str?;
    assert RoleOf(items[0]) == Crash;
  }
}

=== FILE: positions.dfy ===
/** The shape of the extraction loops: every element of a list is processed
    in order (the first exception ends the loop), and the records produced
    are appended. Stated here once, generically, and used for participants
    and register entries alike. */
module Positions {
  import opened Wrappers

  predicate Increasing(idx: seq<nat>) {
    forall a, b :: 0 <= a < b < |idx| ==> idx[a] < idx[b]
  }

  /** The indices `i` with `flags[i]`, in ascending order. */
  function Selected(flags: seq<bool>): (idx: seq<nat>)
    ensures |idx| <= |flags|
    ensures Increasing(idx)
    ensures forall k :: 0 <= k < |idx| ==> idx[k] < |flags| && flags[idx[k]]
    ensures forall i :: 0 <= i < |flags| && flags[i] ==> i in idx
    decreases |flags|
  {
    if |flags| == 0 then []
    else
      var prefix := Selected(flags[..|flags| - 1]);
      if flags[|flags| - 1] then prefix + [|flags| - 1] else prefix
  }

  lemma {:induction false} NoneSelected(flags: seq<bool>)
    requires forall i :: 0 <= i < |flags| ==> !flags[i]
    ensures Selected(flags) == []
    decreases |flags|
  {
    if |flags| > 0 {
      NoneSelected(flags[..|flags| - 1]);
    }
  }

  /** A single flagged element is selected at position 0. */
  lemma SelectedOne()
    ensures Selected([true]) == [0]
  {
    assert [true][..0] == [];
  }

  /** Which elements produced a record. */
  function Flags<T>(xs: seq<Option<T>>): (flags: seq<bool>)
    ensures |flags| == |xs|
    ensures forall i :: 0 <= i < |xs| ==> flags[i] == xs[i].Some?
  {
    seq(|xs|, i requires 0 <= i < |xs| => xs[i].Some?)
  }

  /** The records produced, in order: the k-th comes from the k-th producing
      element. */
  function Kept<T>(xs: seq<Option<T>>): (ys: seq<T>)
    ensures |ys| == |Selected(Flags(xs))|
    ensures forall k :: 0 <= k < |ys| ==> xs[Selected(Flags(xs))[k]] == Some(ys[k])
    decreases |xs|
  {
    if |xs| == 0 then []
    else
      var n := |xs| - 1;
      var front := Kept(xs[..n]);
      KeptStep(xs);
      if xs[n].Some? then front + [xs[n].value] else front
  }

  lemma KeptStep<T>(xs: seq<Option<T>>)
    requires |xs| > 0
    ensures Selected(Flags(xs)) == Selected(Flags(xs[..|xs| - 1])) + (if xs[|xs| - 1].Some? then [|xs| - 1] else [])
    ensures forall i :: 0 <= i < |xs| - 1 ==> xs[..|xs| - 1][i] == xs[i]
  {
    var n := |xs| - 1;
    assert Flags(xs)[..n] == Flags(xs[..n]);
  }

  /** Apply `f` to every element in order; the first failure is the result. */
  function Traverse<S, T>(xs: seq<S>, f: S -> Result<T>): (r: Result<seq<T>>)
    ensures r.Ok? <==> forall i :: 0 <= i < |xs| ==> f(xs[i]).Ok?
    ensures r.Ok? ==> |r.value| == |xs| && forall i :: 0 <= i < |xs| ==> f(xs[i]) == Ok(r.value[i])
    decreases |xs|
  {
    if |xs| == 0 then Ok([])
    else
      var n := |xs| - 1;
      var front :- Traverse(xs[..n], f);
      assert forall i :: 0 <= i < n ==> xs[..n][i] == xs[i];
      var last :- f(xs[n]);
      Ok(front + [last])
  }
}

=== FILE: records.dfy ===
/** The three record kinds the extractor produces. Every optional field is
    `Option<string>`: the records are pydantic models whose fields are
    `Optional[str]`, except the register number and the identifiers, which are
    plain `str`. */
module Records {
  import opened Wrappers

  datatype Company = Company(
    courtSenderCode: Option<string>,
    currentStatuteDate: Option<string>,
    currentDesignation: Option<string>,
    legalFormCode: Option<string>,
    location: Option<string>,
    addressTypeCode: Option<string>,
    street: Option<string>,
    houseNumber: Option<string>,
    postalCode: Option<string>,
    city: Option<string>,
    state: Option<string>,
    subjectMatter: Option<string>,
    registerCode: Option<string>,
    registerNumber: string,
    registerNumberAddition: Option<string>,
    companyNumber: string,
    filePath: string,
    opencorporates: string)

  /** A participant of the proceedings: a natural person or an organisation. */
  datatype Participant =
    | Person(
        roleNumber: Option<string>,
        roleNameCode: Option<string>,
        firstName: Option<string>,
        lastName: Option<string>,
        birthDate: Option<string>,
        genderCode: Option<string>,
        city: Option<string>,
        stateCode: Option<string>,
        companyNumber: string,
        filePath: string)
    | Organization(
        roleNumber: Option<string>,
        roleNameCode: Option<string>,
        name: Option<string>,
        legalFormCode: Option<string>,
        city: Option<string>,
        stateCode: Option<string>,
        companyNumber: string,
        filePath: string)

  /** One `tns:eintragungstext` item of the register extract. */
  datatype RegisterEntry = RegisterEntry(
    column: Option<string>,
    position: Option<string>,
    runningNumber: Option<string>,
    entryTypeCode: Option<string>,
    text: Option<string>,
    companyNumber: string,
    filePath: string)
}

=== FILE: tree.dfy ===
/** The tree that xmltodict builds from an XML document, and the handful of
    Python operations the extractor performs on it.

    An element with text only becomes a string, an empty element becomes None,
    an element with children or attributes becomes a dict (insertion ordered),
    and a repeated element becomes a list. Every operation below mirrors what
    the corresponding Python expression does on such values, including the
    cases in which Python raises.
 */
module Tree {
  import opened Wrappers

  datatype Node =
    | Null
    | Str(s: string)
    | Map(kvs: seq<(string, Node)>)
    | List(items: seq<Node>)

  /** The `{}` passed as default to `.get` */
  const Empty: Node := Map([])

  /** Index of the first entry whose key is `key` (a dict has unique keys, so
      "first" only matters for trees xmltodict cannot produce). */
  function KeyIndex(kvs: seq<(string, Node)>, key: string): (r: Option<nat>)
    ensures r.None? <==> forall i :: 0 <= i < |kvs| ==> kvs[i].0 != key
    ensures r.Some? ==> r.value < |kvs| && kvs[r.value].0 == key
    ensures r.Some? ==> forall j :: 0 <= j < r.value ==> kvs[j].0 != key
  {
    if |kvs| == 0 then None
    else if kvs[0].0 == key then Some(0)
    else
      match KeyIndex(kvs[1..], key)
      case None => None
      case Some(i) => Some(i + 1)
  }

  /** `key in n` for a dict `n` */
  predicate HasKey(n: Node, key: string) {
    n.Map? && KeyIndex(n.kvs, key).Some?
  }

  /** Python's `n.get(key, dflt)`: the default only when the key is absent
      (a key present with value None yields None), and an AttributeError when
      `n` is not a dict. */
  function Get(n: Node, key: string, dflt: Node): (r: Result<Node>)
    ensures r.Ok? <==> n.Map?
    ensures n.Map? && !HasKey(n, key) ==> r == Ok(dflt)
    ensures HasKey(n, key) ==> r.Ok? && exists i :: 0 <= i < |n.kvs| && n.kvs[i] == (key, r.value)
  {
    match n
    case Map(kvs) =>
      (match KeyIndex(kvs, key)
       case Some(i) => Ok(kvs[i].1)
       case None => Ok(dflt))
    case _ => Crash
  }

  /** `n.get(key) if n is not None else None`, the guarded form the extractor
      uses for a few participant fields. */
  function GetUnlessNone(n: Node, key: string): (r: Result<Node>)
    ensures n.Null? ==> r == Ok(Null)
    ensures r.Ok? <==> n.Null? || n.Map?
    ensures n.Map? ==> r == Get(n, key, Null)
  {
    if n.Null? then Ok(Null) else Get(n, key, Null)
  }

  /** A chain `n.get(k0, {}).get(k1, {})...`: every missing step yields `{}`. */
  function Dig(n: Node, keys: seq<string>): (r: Result<Node>)
    decreases |keys|
  {
    if |keys| == 0 then Ok(n)
    else
      var m :- Get(n, keys[0], Empty);
      Dig(m, keys[1..])
  }

  /** A chain ending in a plain `.get(last)`: `n.get(k0, {})...get(last)`. */
  function Lookup(n: Node, keys: seq<string>): (r: Result<Node>)
    requires |keys| > 0
    ensures r.Ok? ==> n.Map?
  {
    var parent :- Dig(n, keys[..|keys| - 1]);
    Get(parent, keys[|keys| - 1], Null)
  }

  /** Digging in two stages is the same as digging once along the joined path. */
  lemma {:induction false} DigAppend(n: Node, a: seq<string>, b: seq<string>)
    ensures Dig(n, a + b) == (match Dig(n, a) case Crash => Crash case Ok(m) => Dig(m, b))
    decreases |a|
  {
    if |a| == 0 {
      assert a + b == b;
    } else {
      assert (a + b)[0] == a[0];
      assert (a + b)[1..] == a[1..] + b;
      match Get(n, a[0], Empty)
      case Crash =>
      case Ok(m) => DigAppend(m, a[1..], b);
    }
  }

  /** Below a missing key every further step lands in `{}` again. */
  lemma {:induction false} DigEmpty(keys: seq<string>)
    ensures Dig(Empty, keys) == Ok(Empty)
    decreases |keys|
  {
    if |keys| > 0 {
      assert Get(Empty, keys[0], Empty) == Ok(Empty);
      DigEmpty(keys[1..]);
    }
  }

  /** The optional-safe traversal: when the dict reached after `keys[..j]`
      lacks `keys[j]`, the leaf at the end of the whole path is None, whatever
      the path looks like below that point, and nothing raises. */
  lemma {:induction false} MissingKeyYieldsNull(n: Node, keys: seq<string>, j: nat)
    requires j < |keys|
    requires Dig(n, keys[..j]).Ok? && Dig(n, keys[..j]).value.Map?
    requires !HasKey(Dig(n, keys[..j]).value, keys[j])
    ensures Lookup(n, keys) == Ok(Null)
  {
    var parentPath := keys[..|keys| - 1];
    var m := Dig(n, keys[..j]).value;
    if j == |keys| - 1 {
      assert parentPath == keys[..j];
    } else {
      var rest := keys[j + 1..|keys| - 1];
      assert parentPath == keys[..j] + ([keys[j]] + rest);
      DigAppend(n, keys[..j], [keys[j]] + rest);
      assert Get(m, keys[j], Empty) == Ok(Empty);
      assert ([keys[j]] + rest)[1..] == rest;
      DigEmpty(rest);
      assert Dig(m, [keys[j]] + rest) == Ok(Empty);
    }
  }

  /** The other way a chain ends: when the value reached after `keys[..j]`
      is not a dict, the next `.get` raises an AttributeError and so does
      the whole chain. */
  lemma NonDictYieldsCrash(n: Node, keys: seq<string>, j: nat)
    requires j < |keys|
    requires Dig(n, keys[..j]).Ok? && !Dig(n, keys[..j]).value.Map?
    ensures Dig(n, keys) == Crash
  {
    assert keys == keys[..j] + keys[j..];
    DigAppend(n, keys[..j], keys[j..]);
  }

  /** A `.get` chain split after its first `|a|` steps. */
  lemma LookupAppend(n: Node, a: seq<string>, b: seq<string>)
    requires |b| > 0
    ensures Lookup(n, a + b) == (match Dig(n, a) case Crash => Crash case Ok(m) => Lookup(m, b))
  {
    assert (a + b)[..|a + b| - 1] == a + b[..|b| - 1];
    assert (a + b)[|a + b| - 1] == b[|b| - 1];
    DigAppend(n, a, b[..|b| - 1]);
  }

  lemma LookupSingle(n: Node, key: string)
    ensures Lookup(n, [key]) == Get(n, key, Null)
  {
    assert [key][..0] == [];
  }

  lemma LookupPair(n: Node, a: string, b: string)
    ensures Lookup(n, [a, b]) == (match Get(n, a, Empty) case Crash => Crash case Ok(m) => Get(m, b, Null))
  {
    assert [a, b][..1] == [a];
    assert [a][1..] == [];
    match Get(n, a, Empty)
    case Crash =>
    case Ok(m) => assert Dig(n, [a]) == Dig(m, []);
  }

  /** A dictionary with one entry. */
  function Single(key: string, value: Node): (n: Node)
    ensures Get(n, key, Empty) == Ok(value)
  {
    Map([(key, value)])
  }

  /** One step of a `.get(..., {})` chain. */
  lemma DigStep(n: Node, key: string, m: Node, rest: seq<string>, target: Node)
    requires Get(n, key, Empty) == Ok(m) && Dig(m, rest) == Ok(target)
    ensures Dig(n, [key] + rest) == Ok(target)
  {
    assert ([key] + rest)[0] == key && ([key] + rest)[1..] == rest;
  }

  /** Lookups in a dictionary with two entries under distinct keys. */
  lemma GetOfPair(k1: string, v1: Node, k2: string, v2: Node, other: string)
    requires k1 != k2 && other != k1 && other != k2
    ensures Get(Map([(k1, v1), (k2, v2)]), k1, Empty) == Ok(v1)
    ensures Get(Map([(k1, v1), (k2, v2)]), k2, Empty) == Ok(v2)
    ensures Get(Map([(k1, v1), (k2, v2)]), other, Empty) == Ok(Empty)
  {
    var kvs := [(k1, v1), (k2, v2)];
    assert kvs[1..] == [(k2, v2)];
    assert KeyIndex(kvs[1..], k2) == Some(0);
    assert KeyIndex(kvs[1..][1..], other) == None;
  }

  /** Python truthiness: None, "", {} and [] are false, everything else true. */
  predicate Truthy(n: Node)
    ensures Truthy(n) <==> n != Null && n != Str("") && n != Empty && n != List([])
  {
    match n
    case Null => false
    case Str(s) => s != ""
    case Map(kvs) => |kvs| > 0
    case List(items) => |items| > 0
  }

  predicate OccursAt(needle: string, hay: string, i: int) {
    0 <= i && i + |needle| <= |hay| && hay[i..i + |needle|] == needle
  }

  /** Substring test, as `needle in hay` does on two strings. */
  predicate IsSubstring(needle: string, hay: string) {
    exists i :: 0 <= i <= |hay| && OccursAt(needle, hay, i)
  }

  /** Python's `key in n`: a key test on a dict, an equality test against each
      element of a list, a substring test on a string, a TypeError on None. */
  function Contains(n: Node, key: string): (r: Result<bool>)
    ensures r.Ok? <==> !n.Null?
    ensures n.Map? ==> r == Ok(HasKey(n, key))
    ensures n.List? ==> r == Ok(Str(key) in n.items)
    ensures n.Str? ==> r == Ok(IsSubstring(key, n.s))
  {
    match n
    case Null => Crash
    case Str(s) => Ok(IsSubstring(key, s))
    case Map(_) => Ok(HasKey(n, key))
    case List(items) => Ok(Str(key) in items)
  }

  /** The values a `for x in n` loop visits: the elements of a list, the keys
      of a dict, the one-character strings of a string; None is not iterable. */
  function Iter(n: Node): (r: Result<seq<Node>>)
    ensures r.Ok? <==> !n.Null?
    ensures n.List? ==> r == Ok(n.items)
    ensures n.Map? ==> r.Ok? && |r.value| == |n.kvs| && forall i :: 0 <= i < |n.kvs| ==> r.value[i] == Str(n.kvs[i].0)
    ensures n.Str? ==> r.Ok? && |r.value| == |n.s| && forall i :: 0 <= i < |n.s| ==> r.value[i] == Str([n.s[i]])
  {
    match n
    case Null => Crash
    case Str(s) => Ok(seq(|s|, i requires 0 <= i < |s| => Str([s[i]])))
    case Map(kvs) => Ok(seq(|kvs|, i requires 0 <= i < |kvs| => Str(kvs[i].0)))
    case List(items) => Ok(items)
  }

  /** Pydantic validation of an `Optional[str]` field: None and strings pass,
      a dict or a list is rejected. */
  function AsOptStr(n: Node): (r: Result<Option<string>>)
    ensures r.Ok? <==> n.Null? || n.Str?
    ensures r == Ok(None) <==> n.Null?
    ensures n.Str? ==> r == Ok(Some(n.s))
  {
    match n
    case Null => Ok(None)
    case Str(s) => Ok(Some(s))
    case _ => Crash
  }

  /** Pydantic validation of a `str` field: only a string passes. */
  function AsStr(n: Node): (r: Result<string>)
    ensures r.Ok? <==> n.Str?
    ensures n.Str? ==> r.value == n.s
  {
    match n
    case Str(s) => Ok(s)
    case _ => Crash
  }

  /** The leaf at the end of a `.get` chain, validated as `Optional[str]`. */
  function Leaf(n: Node, keys: seq<string>): Result<Option<string>>
    requires |keys| > 0
  {
    var v :- Lookup(n, keys);
    AsOptStr(v)
  }

  /** What a leaf read means: it succeeds exactly when the value before the
      last key is a dict and the value found is None or a string, and it
      gives None exactly when the last key is missing or holds None. */
  lemma LeafMeaning(n: Node, keys: seq<string>)
    requires |keys| > 0
    ensures Lookup(n, keys).Ok? <==> Dig(n, keys[..|keys| - 1]).Ok? && Dig(n, keys[..|keys| - 1]).value.Map?
    ensures Lookup(n, keys).Ok? && !HasKey(Dig(n, keys[..|keys| - 1]).value, keys[|keys| - 1]) ==> Lookup(n, keys) == Ok(Null)
    ensures Leaf(n, keys).Ok? <==> Lookup(n, keys).Ok? && (Lookup(n, keys).value.Null? || Lookup(n, keys).value.Str?)
    ensures Leaf(n, keys) == Ok(None) <==> Lookup(n, keys) == Ok(Null)
    ensures Leaf(n, keys).Ok? && Leaf(n, keys).value.Some? ==> Lookup(n, keys) == Ok(Str(Leaf(n, keys).value.value))
  {
  }

  /** Every leaf read from `{}` gives None, whatever its path. */
  lemma EmptyLeaf(keys: seq<string>)
    requires |keys| > 0
    ensures Lookup(Empty, keys) == Ok(Null) && Leaf(Empty, keys) == Ok(None)
  {
    DigEmpty(keys[..|keys| - 1]);
  }

  /** `parent.get(key) if parent is not None else None` on the value a
      `.get(..., {})` chain reaches, validated as `Optional[str]`: a None
      parent gives None, a dictionary is read like any other leaf, and
      anything else raises. */
  function GuardedLeaf(n: Node, parentPath: seq<string>, key: string): (r: Result<Option<string>>)
    ensures r.Ok? ==> Dig(n, parentPath).Ok? && (Dig(n, parentPath).value.Null? || Dig(n, parentPath).value.Map?)
    ensures Dig(n, parentPath) == Ok(Null) ==> r == Ok(None)
    ensures Dig(n, parentPath).Ok? && Dig(n, parentPath).value.Map? ==> r == Leaf(n, parentPath + [key])
  {
    assert (parentPath + [key])[..|parentPath|] == parentPath;
    var parent :- Dig(n, parentPath);
    var v :- GetUnlessNone(parent, key);
    AsOptStr(v)
  }

  lemma LeafAppend(n: Node, a: seq<string>, b: seq<string>)
    requires |b| > 0
    ensures Leaf(n, a + b) == (match Dig(n, a) case Crash => Crash case Ok(m) => Leaf(m, b))
  {
    LookupAppend(n, a, b);
  }

  /** How an f-string renders an optional string: None becomes "None". */
  function Render(o: Option<string>): (r: string)
    ensures o.None? ==> r == "None"
    ensures o.Some? ==> r == o.value
  {
    match o
    case None => "None"
    case Some(s) => s
  }
}

=== FILE: wrappers.dfy ===
/** Failure-compatible wrappers used throughout the model.

    `Result` has a single failure value, `Crash`: it stands for every Python
    exception the extractor can raise (an AttributeError from `.get` on a value
    that is not a dict, a TypeError from `re.search(None)` or from iterating
    None, an IndexError from `roles[0]`, a pydantic ValidationError). None of
    those exceptions is caught anywhere in the extractor, so their kind does
    not matter to a caller.
 */
module Wrappers {

  datatype Option<+T> = None | Some(value: T)

  datatype Result<+T> = Ok(value: T) | Crash {

    predicate IsFailure() {
      Crash?
    }

    function PropagateFailure<U>(): Result<U>
      requires Crash?
    {
      Crash
    }

    function Extract(): T
      requires Ok?
    {
      value
    }
  }
}
